=== FILE: README.md ===
# weverywhere build drivers and executor core, in Dafny

This project models the sequential, mostly pure core of `weverywhere`.
`weverywhere` is a tool that runs WebAssembly programs on remote executors and streams their output back over UDP.
Its build scripts drive cross-target builds.

The model covers these parts, one Dafny module per source file:

- **`ZigBuild`** (`zig-build-all-targets.py`): the cross-target build driver.
  - It checks that the required binaries are present and reads a yes/no install prompt.
  - When the MinGW `dlltool` is missing, it extends `PATH` with the cache directories and fetches the linker archive.
  - It removes `RUSTFLAGS`, then builds a fixed list of targets fail-fast. It locates each binary, trying `.exe` first.
- **`ExamplePrograms`** (`compile-example-programs.py`): the example driver.
  - It accepts only `.c` files, walks the directory listing and stops at the first rejected entry.
- **`UniversalSerde`** (`src/universal_serde.rs`): the format-sniffing deserializer.
  - JSON (after UTF-8 validation), then CBOR, then BARE. The first parser that succeeds wins.
  - A fast path tries an expected format first.
  - The serializer dispatches on the format.
- **`Executor`** (`src/executor/mod.rs`):
  - The `ProgramDataBuilder`.
  - The initial state of an executor and its trusted-key map, including the name our own key is filed under.
- **`WasiAdapters`** (`src/executor/wasi_adapters.rs`): the forwarder that sends a program's stdout as UDP frames, and its `poll_write` state machine.
- **`ErrUtils`** (`src/err_utils.rs`): the `LocationError` display, and how `loc_err!` derives a function name from a type name.
- **`GithubPages`** (`update-github-pages.py`): the pure helpers.
  - Reading `HEAD` and the loose commit object.
  - The commit message, the `git diff --numstat` sums and the version string.
  - The size of a file or directory in whole megabytes.
- **`NetUtils`** (`src/net_utils.rs`): the Unix interface listing. Names are de-duplicated on first occurrence and kept when their index is non-zero.
- **`FsUtils`** (`src/fs_utils.rs`): picking the unit of a byte count.

Some modules model the library behaviour the sources rely on:

- `PyStr`: `str.strip`, `lower`, `split`, `splitlines`, `find`, `startswith` and `endswith`.
- `PosixPath`: `os.path.join`.
- `Utf8`: UTF-8 encoding and decoding as in RFC 3629. This covers Rust's `str::from_utf8`, `String::into_bytes` and `str::len`.
- `Decimal`: decimal rendering and parsing of naturals.
- `Wrappers` and `Machine`: `Option`, `Result` and the fixed-width integers.

The outside world enters as parameters:

- `shutil.which`, `os.path.exists` and file contents are oracles.
- The user's answer and the build outcomes are fields of a `Host` record.
- The codecs are functions carried in a `Codecs` record.
- Socket sends are a sequence of outcomes.
- `if_nametoindex` is a function.

Python exceptions, `sys.exit` and Rust panics become explicit error results.

Some behaviours of the code are easy to misread:

- The example driver only checks the `.c` suffix and prints a line per file; it compiles nothing. There is no directive parser, no templating and no SDK handling in it.
- `RUSTFLAGS` is removed once, before the target loop; no per-target linker variable is set.
- Because the macro's item is declared inside a closure, `map_loc_err!` reports `fname::{{closure}}`, not `fname`.
- When `dlltool` is missing, `PATH` gains five entries: the cache folder itself and four sub-directories of it.

## Model

| member | source | states |
|---|---|---|
| ZigBuild.FirstMissing | zig-build-all-targets.py:23-26 | None exactly when every required binary resolves; otherwise the first one in list order that does not |
| ZigBuild.CheckRequired | zig-build-all-targets.py:21-26 | the run goes on exactly when `cargo` and `zig` both resolve, else it stops with exit status 1; nothing is done and the environment is untouched |
| ZigBuild.MissingRequiredBinaryExits | zig-build-all-targets.py:21-26 | a missing `cargo` or `zig` makes the whole script exit with status 1 before any other step |
| ZigBuild.AcceptsInstall | zig-build-all-targets.py:29-30 | the answer is accepted exactly when its first non-space character is `y`, `Y`, `1`, `t` or `T` |
| ZigBuild.AcceptsInstallFirstVisible | zig-build-all-targets.py:29-30 | `yn[:1] in ('y','1','t')` on the stripped, lower-cased answer agrees with the first-visible-character rule; an empty answer rejects |
| ZigBuild.LowerCharYes | zig-build-all-targets.py:29-30 | a character lower-cases into `y`, `1` or `t` exactly when it is one of `y Y 1 t T` |
| ZigBuild.EnsureZigbuild | zig-build-all-targets.py:28-35 | with `cargo-zigbuild` present nothing happens; otherwise the install runs exactly when the answer accepts; end of input stops the run, a declined answer exits with status 1, and after an accepted answer the run goes on exactly when the install succeeds, else it stops with the install command's failure |
| ZigBuild.ZigbuildStage | zig-build-all-targets.py:28-35 | a running script gets past the install step exactly when `cargo-zigbuild` resolves, or the answer accepts and the install succeeds |
| ZigBuild.DeclinedInstallExits | zig-build-all-targets.py:28-32 | a declined install prompt ends the script with status 1 and no step done |
| ZigBuild.AugmentedPath | zig-build-all-targets.py:44-51 | the new PATH starts with the old one and a separator, and splitting it on `:` gives the old entries followed by the cache folder and its four tool directories in order |
| ZigBuild.MingwDirsAvoidSep | zig-build-all-targets.py:41-51 | when the home directory has no `:`, no added directory has one, so each stays a single PATH entry |
| ZigBuild.EnsureDlltool | zig-build-all-targets.py:40-68 | when `dlltool` resolves nothing happens; otherwise the cache folder is created, then PATH is replaced by the augmented value, or the run stops right after the folder step when PATH is unset; with PATH set, the steps are exactly the folder, the new PATH and, when `dlltool` still does not resolve, the fetch; the run goes on exactly when `dlltool` resolves on the extended PATH or the fetch succeeds, and otherwise stops with the fetch's failure |
| ZigBuild.DlltoolStage | zig-build-all-targets.py:40-68 | a running script gets past the dlltool step exactly when `dlltool` resolves, or PATH is set and `dlltool` resolves on the extended PATH or the fetch succeeds |
| ZigBuild.ExtendPath | zig-build-all-targets.py:44-68 | the PATH step records the augmented value and changes only `PATH` in the environment; an unset PATH raises and nothing else changes; with PATH set the steps are exactly the new PATH and, when `dlltool` still does not resolve there, the fetch; with PATH set the run goes on exactly when it was going and `dlltool` resolves on the new PATH or the fetch succeeds, and otherwise stops with the fetch's failure |
| ZigBuild.FetchIfUnresolved | zig-build-all-targets.py:52-68 | when `dlltool` resolves on the new PATH nothing happens; otherwise exactly the fetch step is appended, the run goes on exactly when it was going and the fetch succeeds, and a failed fetch stops it with FetchFailed; the environment is never changed |
| ZigBuild.DlltoolFetch | zig-build-all-targets.py:40-52 | the archive is fetched exactly when `dlltool` is unresolved before and still unresolved on the augmented PATH |
| ZigBuild.PrepareFetch | zig-build-all-targets.py:40-85 | past the install prompt, preparation fetches the archive exactly when `dlltool` resolves neither on the original PATH nor on the augmented one |
| ZigBuild.BuildAllNeverFetches | zig-build-all-targets.py:88-105 | the target loop adds no fetch step |
| ZigBuild.FetchOnlyWhenStillUnresolved | zig-build-all-targets.py:40-52 | over the whole script, the fetch happens exactly when `dlltool` resolves neither on the original PATH nor on the augmented one |
| ZigBuild.DropRustflags | zig-build-all-targets.py:84-85 | `RUSTFLAGS` is absent afterwards and every other variable keeps its presence and value |
| ZigBuild.CandidatePaths | zig-build-all-targets.py:74-77 | the two candidates are `target/<t>/release/weverywhere.exe` and `target/<t>/release/weverywhere` |
| ZigBuild.FindTargetBinary | zig-build-all-targets.py:73-81 | succeeds exactly when a candidate exists, preferring `.exe`; the error names the target |
| ZigBuild.BuildTargets | zig-build-all-targets.py:99-105 | the loop finishes without stopping exactly when every target builds and its binary is found; it takes at most two steps per target, and exactly two when none fails |
| ZigBuild.BuildTargetsAllSucceed | zig-build-all-targets.py:99-105 | when every target succeeds, the trace is each build followed by its lookup, in list order, with no stop |
| ZigBuild.BuildTargetsStopsAtFirstFailure | zig-build-all-targets.py:99-105 | when target k is the first to fail, the targets before it ran in order, k was built, and the run stops with k's failure |
| ZigBuild.BuildTargetsNoLaterAttempt | zig-build-all-targets.py:99-105 | no target after the first failing one is ever built |
| ZigBuild.BuildTargetsKinds | zig-build-all-targets.py:99-105 | the target loop only builds and locates |
| ZigBuild.BuildAll | zig-build-all-targets.py:88-105 | a stopped run is left as is; otherwise the target loop's steps are appended and its stop is the run's stop |
| ZigBuild.PreparationStages | zig-build-all-targets.py:21-68 | the required-binary check passes exactly when `cargo` and `zig` resolve, and the checks before the target loop all pass exactly when `PreparationSucceeds` holds |
| ZigBuild.Prepare | zig-build-all-targets.py:21-85 | preparation lets the run go on exactly when `cargo` and `zig` resolve, `cargo-zigbuild` resolves or is installed after an accepted prompt, and `dlltool` resolves on the original PATH, on the extended one, or after a successful fetch; then `RUSTFLAGS` is unset |
| ZigBuild.RunScript | zig-build-all-targets.py:21-105 | the script ends normally exactly when preparation succeeds and every target builds and its binary is found, and then `RUSTFLAGS` is unset |
| ZigBuild.TargetsRunAfterPreparation | zig-build-all-targets.py:84-105 | once preparation succeeds, the targets run after the preparation steps, in list order, in an environment without `RUSTFLAGS` |
| ExamplePrograms.CompileExampleProgram | compile-example-programs.py:16-21 | accepts exactly the paths ending in `.c`; any other raises the fixed message |
| ExamplePrograms.RejectMessage | compile-example-programs.py:21 | the error message names the rejected path |
| ExamplePrograms.MakeOutputDirs | compile-example-programs.py:26-28 | afterwards the output directory exists and only it and `target` may be new |
| ExamplePrograms.MakeOutputDirsIdempotent | compile-example-programs.py:28 | creating the output directories twice is the same as once (`exist_ok=True`) |
| ExamplePrograms.CompileAll | compile-example-programs.py:30-32 | no failure exactly when every listed name ends in `.c`, with a compile line per entry in listing order; otherwise it stops at the first rejected entry, after logging it, with that entry's message |
| ExamplePrograms.RunScript | compile-example-programs.py:24-34 | output directories are created first; a failed listing raises; success iff all entries are `.c`, and then the done line ends the log; the done line appears exactly on success |
| ExamplePrograms.CompileLineIsNotDone | compile-example-programs.py:17-34 | a compile line is never the final done line |
| PosixPath.JoinKeepsSuffix | compile-example-programs.py:18-31 | a joined path ends with `.c` exactly when the listed name does |
| PosixPath.JoinNames | zig-build-all-targets.py:74-77 | joining plain names puts exactly one `/` before each |
| UniversalSerde.ParseAs | src/universal_serde.rs:57-72 | the JSON parser sees the bytes only once they decode as UTF-8, and reports the UTF-8 error otherwise |
| UniversalSerde.Deserialize | src/universal_serde.rs:16-30 | a success is what its format's parser returns and every earlier format failed; failure exactly when all three fail, with the message holding the three errors in order |
| UniversalSerde.CollectAllFailed | src/universal_serde.rs:22-28 | when all parsers fail, the collected text is the three errors, each followed by a line break |
| UniversalSerde.FailureMessageOneLine | src/universal_serde.rs:25-29 | after the fixed head, the failure message holds no raw `\n` and no raw `\r`, because the collected text is shown through `Debug` |
| UniversalSerde.EscapeAllOneLine | src/universal_serde.rs:29 | the `Debug` escaping of a string leaves no raw `\n` and no raw `\r` in it |
| UniversalSerde.DebugStr | src/universal_serde.rs:29 | the `{:?}` rendering is quoted, holds no raw `\n` and no raw `\r`, and unescaping the text between the quotes gives the string back |
| UniversalSerde.UnescapeEscapeAll | src/universal_serde.rs:29 | escaping is undone by unescaping, for every string |
| UniversalSerde.DebugStrInjective | src/universal_serde.rs:29 | two strings with the same `{:?}` rendering are equal, so the collected errors are shown without loss |
| UniversalSerde.DeserializeExpected | src/universal_serde.rs:35-54 | if the expected format parses, its value comes back tagged with that format; otherwise the full search decides |
| UniversalSerde.ExpectedTagIsParser | src/universal_serde.rs:35-54 | the format reported always parses to the value reported, and the fast path fails only when the full search does |
| UniversalSerde.ExpectedAgreesWhenUnambiguous | src/universal_serde.rs:16-54 | when exactly one format parses, the fast path and the full search agree, whatever was expected |
| UniversalSerde.NotUtf8NeverJson | src/universal_serde.rs:57-61 | bytes that are not UTF-8 are never reported as JSON |
| UniversalSerde.Serialize | src/universal_serde.rs:77-90 | JSON text goes out as its UTF-8 bytes, which decode back to the text; CBOR and BARE use their encoders |
| UniversalSerde.SerializeThenExpected | src/universal_serde.rs:35-90 | with round-tripping codecs, writing a value in a format and reading it back expecting that format gives the value and format |
| Utf8.DecodeEncode | src/universal_serde.rs:58-81 | decoding the UTF-8 bytes of a string gives the string back |
| Executor.NewBuilder | src/executor/mod.rs:57-64 | no source, name `UNSET_NAME`, empty program and signature |
| Executor.SetSource | src/executor/mod.rs:65-68 | sets the source and changes nothing else |
| Executor.SetHumanName | src/executor/mod.rs:69-72 | sets the name and changes nothing else |
| Executor.SetWasmProgramBytes | src/executor/mod.rs:73-77 | the program bytes are replaced, not appended to, and nothing else changes |
| Executor.SetSignature | src/executor/mod.rs:78-82 | the signature bytes are replaced and nothing else changes |
| Executor.Build | src/executor/mod.rs:83-95 | a record comes out exactly when a source was set, carrying every field unchanged; else the fixed error |
| Executor.NewBuilderFails | src/executor/mod.rs:57-95 | building a fresh builder fails with the no-source error |
| Executor.LastSetterWins | src/executor/mod.rs:65-82 | setting a field twice is the same as setting it once to the second value |
| Executor.SettersCommute | src/executor/mod.rs:65-82 | setters of different fields can be applied in either order |
| Executor.BuildChain | src/executor/mod.rs:57-95 | a chain setting every field builds exactly the record of those values |
| Executor.BuildWithoutSourceFails | src/executor/mod.rs:57-95 | no chain without a source builds |
| Executor.FileName | src/executor/mod.rs:140 | `Path::file_name` is never empty, `.`, `..` or holding a `/` |
| Executor.FileNameOfChild | src/executor/mod.rs:140 | the file name of `dir/name` is `name` |
| Executor.AddTrustedKey | src/executor/mod.rs:153-155 | the name maps to the key, other names keep their keys, and the counters are unchanged |
| Executor.AddTrustedKeyOverwrites | src/executor/mod.rs:153-155 | adding a key under the same name twice keeps only the second |
| Executor.OwnKeyName | src/executor/mod.rs:140 | our own key is filed under a non-empty name |
| Executor.OwnKeyNamedAfterFile | src/executor/mod.rs:140 | our key is filed under its key file's name |
| Executor.NewExecutor | src/executor/mod.rs:117-151 | pid 0, 16384 untrusted instructions, `u64::MAX` trusted, and trusted keys holding only our own key when it could be read, else none |
| WasiAdapters.NewNop | src/executor/wasi_adapters.rs:34-42 | no destination, pid 0, nothing pending |
| WasiAdapters.NewMaybeUdp | src/executor/wasi_adapters.rs:43-51 | the given destination and socket, pid 0, nothing pending |
| WasiAdapters.NewUdp | src/executor/wasi_adapters.rs:52-60 | both given, pid 0, nothing pending |
| WasiAdapters.SetPid | src/executor/wasi_adapters.rs:61-63 | only the pid changes |
| WasiAdapters.SendLoop | src/executor/wasi_adapters.rs:91-104 | progress is the sum of the bytes sent; done exactly when the whole frame is out; each send is offered the unsent rest; every outcome before the last one used is a completed send, so the first pending or failed send ends the loop, and a finished loop saw only completed sends |
| WasiAdapters.SendFrame | src/executor/wasi_adapters.rs:90-110 | the result is the whole buffer written, not ready, or the send's error, nothing else; the write is reported whole exactly when the frame is fully sent, which clears it, and then every send completed; otherwise the frame and its progress are kept and only the last send used can be the pending or failed one |
| WasiAdapters.PollWrite | src/executor/wasi_adapters.rs:68-116 | as written: no route or an encoding error reports the buffer written; a frame pending on entry is cleared and reported written without sending; a fresh frame is the encoding of our pid and the buffer, sent from offset 0 exactly as `SendFrame` sends it |
| WasiAdapters.PendingFrameDropped | src/executor/wasi_adapters.rs:74-110 | after a pending send, the retry reports the whole buffer written while offering no byte of the frame's rest |
| WasiAdapters.PollWriteResuming | src/executor/wasi_adapters.rs:68-116 | corrected: a pending frame is resumed from its progress, and reported written exactly when it completes |
| WasiAdapters.ResumingReportsOnlyWholeFrames | src/executor/wasi_adapters.rs:74-110 | over two calls, the buffer is reported written exactly when both calls together sent the whole frame, and the retry resumes at the unsent rest |
| WasiAdapters.PollFlush | src/executor/wasi_adapters.rs:117-123 | always ready and successful |
| WasiAdapters.PollShutdown | src/executor/wasi_adapters.rs:124-130 | always ready and successful |
| WasiAdapters.IsTerminal | src/executor/wasi_adapters.rs:134-138 | never a terminal |
| ErrUtils.Display | src/err_utils.rs:14-18 | the text starts with `at <file>:` and ends with a line break and the wrapped error |
| ErrUtils.DisplayParses | src/err_utils.rs:14-18 | when the file has no `:` and the function no line break, file, line, function and error text can all be read back |
| ErrUtils.Source | src/err_utils.rs:20-24 | the source is always the wrapped error |
| ErrUtils.DeleteAll | src/err_utils.rs:37 | `str::replace(p, "")` never lengthens the text, and an empty pattern changes nothing |
| ErrUtils.DeleteAllWholeOccurrences | src/err_utils.rs:37 | only whole occurrences are deleted: the length removed is a multiple of the pattern's length |
| ErrUtils.DeleteAllOnlyDeletes | src/err_utils.rs:37 | no character is added: the result's characters, with multiplicity, come from the input |
| ErrUtils.DeleteAllAbsent | src/err_utils.rs:37 | replacing an absent module path changes nothing |
| ErrUtils.FunctionName | src/err_utils.rs:35-41 | no `::f` suffix panics; otherwise the module path is deleted and, when more than two bytes remain, the first two characters are dropped |
| ErrUtils.FunctionNameOfItem | src/err_utils.rs:31-41 | for a function `fname` directly in its module, the derived name is `fname` |
| ErrUtils.LocErr | src/err_utils.rs:28-51 | the record carries the error, file, line and derived name, and is absent exactly when the derivation panics |
| ErrUtils.MapLocErr | src/err_utils.rs:54-60 | `Ok` passes through unchanged; an error is wrapped as by `loc_err!` |
| ErrUtils.MapLocErrNamesClosure | src/err_utils.rs:54-60 | through `map_loc_err!`, a function `fname` is reported as `fname::{{closure}}` |
| GithubPages.ParseHead | update-github-pages.py:224-234 | a stripped line starting with `ref: ` points at a ref file; any other line is the hash itself |
| GithubPages.HeadOnBranch | update-github-pages.py:228-229 | `ref: <ref>` names the file `<git dir>/<ref>` |
| GithubPages.HeadDetached | update-github-pages.py:232-234 | a detached line is read as the commit hash |
| GithubPages.CommitHash | update-github-pages.py:228-234 | a ref file's first line, stripped, or the detached hash |
| GithubPages.ObjectPath | update-github-pages.py:237 | for a slash-free hash longer than two characters, the object is `<git dir>/objects/<first two chars>/<rest>` |
| GithubPages.CommitMessage | update-github-pages.py:247-251 | without a blank line the placeholder; otherwise a stripped text |
| GithubPages.MessageAfterHeader | update-github-pages.py:247-251 | for a header, a blank line and a body, the message is the stripped body |
| GithubPages.LastCommit | update-github-pages.py:221-251 | with a detached `HEAD` the hash is the one written there, on a branch it is the stripped first line of the ref file; the message is the placeholder when the object named by that hash has no blank line, and otherwise a stripped text at least two characters shorter than the object |
| GithubPages.LastCommitDetached | update-github-pages.py:221-251 | with a detached `HEAD`, the result is the hash written in `HEAD` and the stripped message of that object |
| GithubPages.LastCommitOnBranch | update-github-pages.py:221-251 | on a branch, the result is the hash in the ref file and the stripped message of that object |
| GithubPages.LineCounts | update-github-pages.py:38-39 | a line lacking a second field raises |
| GithubPages.SumCounts | update-github-pages.py:37-39 | the sums raise exactly when some line lacks a field |
| GithubPages.SumCountsTotals | update-github-pages.py:37-39 | when no line lacks a field, `added` is the total of every line's first field and `deleted` the total of every line's second field, each field that is all digits read as a decimal number and any other field adding 0 |
| PyStr.SplitWhitespaceWords | update-github-pages.py:38 | every field `str.split()` yields is a non-empty run of non-space characters |
| GithubPages.Numstat | update-github-pages.py:37-39 | the sums are missing exactly when some output line has fewer than two whitespace-separated fields, where the source's indexing raises |
| GithubPages.NumstatCons | update-github-pages.py:37-39 | each output line adds its own counts to the totals of the lines after it |
| GithubPages.NumstatEmpty | update-github-pages.py:37-39 | empty output adds and deletes nothing: both sums start at 0 |
| GithubPages.NumstatLastLine | update-github-pages.py:37-39 | a single line without a line break counts exactly its own two fields |
| GithubPages.TextFileLine | update-github-pages.py:38-39 | a text file's line counts exactly its added and deleted numbers |
| GithubPages.BinaryFileLine | update-github-pages.py:38-39 | a binary file's `-` columns count zero |
| GithubPages.VersionString | update-github-pages.py:29-42 | the short hash alone when clean; dirty strings exist exactly when the sums do, and always start with the short hash |
| GithubPages.VersionReadsBack | update-github-pages.py:29-42 | the version string gives back the short hash, whether the tree was dirty and, if so, the exact two sums |
| GithubPages.WalkBytes | update-github-pages.py:259-267 | walking a file or directory adds up exactly the sizes of all files inside it |
| GithubPages.RenderSize | update-github-pages.py:269 | the text is digits followed by `mb` |
| GithubPages.RenderSizeBounds | update-github-pages.py:269 | the number shown is the count of whole megabytes: m·10⁶ ≤ bytes < (m+1)·10⁶ |
| GithubPages.RenderFileSize | update-github-pages.py:256-269 | a missing path renders `0mb`; otherwise the megabytes of its total size |
| NetUtils.GetInterfacesUnix | src/net_utils.rs:19-37 | panics exactly when a listed name holds a NUL; otherwise the names are pairwise distinct and each carries its non-zero `if_nametoindex`; they come in first-occurrence order, and every name with a non-zero index is present |
| NetUtils.FirstAt | src/net_utils.rs:26-28 | the position a name is first listed at: the name is there and nowhere before it, and the position is the listing's length exactly when the name is absent |
| FsUtils.UnitOf | src/fs_utils.rs:5-15 | the four units partition the sizes at 10³, 10⁶ and 10⁹ |
| FsUtils.FormatSizeBytes | src/fs_utils.rs:4-17 | below 1000 exactly the decimal digits and `b`; above, the one-decimal quotient and `kb`, `mb` or `gb` |
| FsUtils.UnitReadsBack | src/fs_utils.rs:4-17 | the unit read from the end of the text is always the size's own unit |
| FsUtils.BytesReadBack | src/fs_utils.rs:5-6 | below 1000 the digits read back as the exact size |
| FsUtils.UnitMonotone | src/fs_utils.rs:5-15 | a larger size never gets a smaller unit, and each unit below `gb` covers a factor of a thousand from its divisor |

## Left out

- I/O is represented, not performed: printing, subprocesses, HTTP downloads, zstd (RFC 8878), tar extraction, zlib (RFC 1950), sockets and file reads are oracles or recorded steps.
- Concurrency is not modelled: the `DashMap`s, atomics and the `running_programs` table.
- `Executor::exec` is not modelled. The WebAssembly execution and the UDP command loops in `src/command` are not part of this model.
- Floating point is not modelled. `FsUtils.FormatSizeBytes` takes the `{:.1}` rendering of the `f32` quotient as a parameter.
- Foreign libraries are opaque:
  - serde_json, serde_cbor and serde_bare are functions in `Codecs`, and their `Debug` error texts are given strings.
  - `read_public_key_ed25519_pem_file` and the configuration it reads from are not part of this model. The key's outcome is a parameter.
- UniversalSerde.DebugStr: escapes only `\0 \t \r \n \\ "`. Rust's `{:?}` for a string also writes `\u{..}` for every non-printable and grapheme-extended character (U+00A0, U+200B, U+2028 or the combining mark U+0301, for instance), and the model keeps those raw, because deciding them needs Unicode's printable and Grapheme_Extend tables. Its output therefore differs from the source's on such characters, though it still holds no raw `\n` or `\r` and reads back.
- UniversalSerde.EscapeAllOneLine: states only that no raw `\n` or `\r` is left. Rust's `{:?}` also writes `\u{..}` for the other line breaks (`\x0b`, `\x0c`, U+0085, U+2028, U+2029), and the model keeps those raw, for the reason given for `DebugStr`.
- UniversalSerde.FailureMessageOneLine: states only that no raw `\n` or `\r` follows the fixed head. The other line breaks may appear raw in the model's message, for the reason given for `DebugStr`; Rust's message would show them as `\u{..}`.
- The Python string functions cover the Unicode white space and line breaks. Lower-casing covers ASCII only, and `isdigit` covers ASCII digits only.
- `os.path.abspath` and `os.path.relpath` are not modelled. The compile line shows `example-programs/<name>` as the relative path.
- The printed messages of the build driver are not modelled, except the compile and done lines of the example driver.
- `WasiAdapters.SendLoop`: when the given send outcomes run out, the loop reports not-ready, because the model cannot loop forever. The source would keep polling, and spins forever when a send reports 0 bytes.
- `GithubPages.RenderFileSize` does not model symbolic links or paths that are neither files nor directories.
- `GithubPages.LastCommit`: missing files, a failed decompression and a failed UTF-8 decode raise in the source. The model leaves them to the oracles.
- The Windows interface listing (`get_interfaces_windows`) is FFI pointer walking and is left out.
- A comment in `src/executor/mod.rs` mentions a 256-byte limit on the human name; no code enforces it, so it is not modelled.
- `Executor.FileName` models `Path::file_name` for `/`-separated paths only.

## Findings

| source | as written | input that shows it | evidently intended | confidence | as-written member | corrected member |
|---|---|---|---|---|---|---|
| src/executor/wasi_adapters.rs:74-110 | When `poll_write` finds a frame still pending from an earlier call, it skips sending, clears the frame and reports the whole buffer written. | The first send of a fresh frame returns `Pending`, then the caller retries the write. The retry reports success, but the unsent rest of the frame is never offered to the socket. | A pending frame is resumed from `current_encoded_sent`, and the write is reported only once the whole frame is out. | not executed | WasiAdapters.PollWrite, WasiAdapters.PendingFrameDropped | WasiAdapters.PollWriteResuming, WasiAdapters.ResumingReportsOnlyWholeFrames |

=== FILE: decimal.dfy ===
/** Decimal text of natural numbers: Rust's `{}` and Python's `f"{n}"`
    render a number this way, and Python's `int()` reads it back. */
module Decimal {

  predicate IsDigit(c: char) {
    '0' <= c <= '9'
  }

  /** Python's `str.isdigit()` restricted to ASCII digits: non-empty and every character a digit. */
  predicate IsDigits(s: string) {
    |s| > 0 && forall i :: 0 <= i < |s| ==> IsDigit(s[i])
  }

  function DigitChar(d: nat): (c: char)
    requires d < 10
    ensures IsDigit(c)
    ensures c as int - '0' as int == d
  {
    ('0' as int + d) as char
  }

  function DigitValue(c: char): (d: nat)
    requires IsDigit(c)
    ensures d < 10
    ensures DigitChar(d) == c
  {
    (c as int - '0' as int) as nat
  }

  /** The canonical decimal rendering: no sign, no leading zero except for 0 itself. */
  function NatToString(n: nat): (s: string)
    ensures IsDigits(s)
    ensures s[0] == '0' ==> n == 0 && |s| == 1
    decreases n
  {
    if n < 10 then [DigitChar(n)] else NatToString(n / 10) + [DigitChar(n % 10)]
  }

  /** Python's `int(s)` on a string of ASCII digits. */
  function ParseDigits(s: string): (r: nat)
    requires forall i :: 0 <= i < |s| ==> IsDigit(s[i])
    decreases |s|
  {
    if |s| == 0 then 0 else ParseDigits(s[..|s| - 1]) * 10 + DigitValue(s[|s| - 1])
  }

  /** Reading back what was rendered gives the number. */
  lemma {:induction false} ParseNatToString(n: nat)
    ensures ParseDigits(NatToString(n)) == n
    decreases n
  {
    var s := NatToString(n);
    if n >= 10 {
      ParseNatToString(n / 10);
      assert s[..|s| - 1] == NatToString(n / 10);
    }
  }

  /** Distinct numbers have distinct renderings. */
  lemma NatToStringInjective(m: nat, n: nat)
    requires NatToString(m) == NatToString(n)
    ensures m == n
  {
    ParseNatToString(m);
    ParseNatToString(n);
  }
}

=== FILE: err_utils.dfy ===
/** `src/err_utils.rs`: errors wrapped with the place they were raised — file,
    line and enclosing function — and how that function's name is derived
    from the type name of a local item. */
module ErrUtils {
  import opened Wrappers
  import opened Machine
  import PyStr
  import Decimal
  import Utf8

  /** An error with the place it was raised; `E` is the wrapped error. */
  datatype LocationError<E> = LocationError(file: string, line: u32, functionName: string, source: E)

  /** `at {file}:{line}\t{function}\n{source}`, where `render`
      is the wrapped error's own `Display`. */
  function Display<E>(e: LocationError<E>, render: E -> string): (d: string)
    ensures PyStr.StartsWith(d, "at " + e.file + ":")
    ensures PyStr.EndsWith(d, "\n" + render(e.source))
  {
    var head := "at " + e.file + ":";
    var tail := "\n" + render(e.source);
    var d := head + (Decimal.NatToString(e.line as nat) + "\t" + e.functionName) + tail;
    assert d[..|head|] == head;
    assert d[|d| - |tail|..] == tail;
    d
  }

  /** The wrapped error is always the source. */
  function Source<E>(e: LocationError<E>): (s: Option<E>)
    ensures s.Some? && s.value == e.source
  {
    Some(e.source)
  }

  /** Reads a rendering back into file, line, function and the wrapped
      error's text. */
  function ParseDisplay(d: string): (r: Option<(string, nat, string, string)>) {
    if !PyStr.StartsWith(d, "at ") then None
    else
      var rest := d[3..];
      match PyStr.IndexOf(rest, ':')
      case None => None
      case Some(colon) => ParseLine(rest[..colon], rest[colon + 1..])
  }

  /** What follows `at {file}:`. */
  function ParseLine(file: string, s: string): (r: Option<(string, nat, string, string)>) {
    match PyStr.IndexOf(s, '\t')
    case None => None
    case Some(tab) =>
      if Decimal.IsDigits(s[..tab]) then ParseFunction(file, Decimal.ParseDigits(s[..tab]), s[tab + 1..])
      else None
  }

  /** What follows the tab. */
  function ParseFunction(file: string, line: nat, s: string): (r: Option<(string, nat, string, string)>) {
    match PyStr.IndexOf(s, '\n')
    case None => None
    case Some(nl) => Some((file, line, s[..nl], s[nl + 1..]))
  }

  lemma ParseFunctionOf(file: string, line: nat, name: string, src: string)
    requires '\n' !in name
    ensures ParseFunction(file, line, name + "\n" + src) == Some((file, line, name, src))
  {
    PyStr.IndexOfFirst(name, '\n', src);
    var s := name + "\n" + src;
    assert s[..|name|] == name && s[|name| + 1..] == src;
  }

  lemma ParseLineOf(file: string, digits: string, name: string, src: string)
    requires Decimal.IsDigits(digits) && '\n' !in name
    ensures ParseLine(file, digits + "\t" + name + "\n" + src) == Some((file, Decimal.ParseDigits(digits), name, src))
  {
    forall i | 0 <= i < |digits| ensures digits[i] != '\t' {
      assert Decimal.IsDigit(digits[i]);
    }
    var s := digits + "\t" + name + "\n" + src;
    assert s == digits + ['\t'] + (name + "\n" + src);
    PyStr.IndexOfFirst(digits, '\t', name + "\n" + src);
    assert s[..|digits|] == digits && s[|digits| + 1..] == name + "\n" + src;
    ParseFunctionOf(file, Decimal.ParseDigits(digits), name, src);
  }

  lemma ParseDisplayOf(file: string, after: string)
    requires ':' !in file
    ensures ParseDisplay("at " + file + ":" + after) == ParseLine(file, after)
  {
    var d := "at " + file + ":" + after;
    assert PyStr.StartsWith(d, "at ") by { assert d[..3] == "at "; }
    var rest := d[3..];
    assert rest == file + [':'] + after;
    PyStr.IndexOfFirst(file, ':', after);
    assert rest[..|file|] == file && rest[|file| + 1..] == after;
  }

  /** The rendering loses nothing: when the file name has no `:` and the
      function name no line break, every field can be read back. */
  lemma DisplayParses<E>(e: LocationError<E>, render: E -> string)
    requires ':' !in e.file && '\n' !in e.functionName
    ensures ParseDisplay(Display(e, render)) == Some((e.file, e.line as nat, e.functionName, render(e.source)))
  {
    var digits := Decimal.NatToString(e.line as nat);
    var src := render(e.source);
    var after := digits + "\t" + e.functionName + "\n" + src;
    assert Display(e, render) == "at " + e.file + ":" + after;
    ParseDisplayOf(e.file, after);
    ParseLineOf(e.file, digits, e.functionName, src);
    Decimal.ParseNatToString(e.line as nat);
  }

  // ---------------------------------------------------------------------------
  // The function name (lines 30-41)

  /** `str::replace(pattern, "")`: every non-overlapping occurrence, leftmost
      first, is deleted. An empty pattern changes nothing. */
  function DeleteAll(s: string, pattern: string): (r: string)
    ensures |r| <= |s|
    ensures |pattern| == 0 ==> r == s
    decreases |s|
  {
    if |pattern| == 0 || |s| < |pattern| then s
    else if PyStr.StartsWith(s, pattern) then DeleteAll(s[|pattern|..], pattern)
    else [s[0]] + DeleteAll(s[1..], pattern)
  }

  /** Deleting adds no character: every character of the result, counted with
      multiplicity, comes from the input. */
  lemma {:induction false} DeleteAllOnlyDeletes(s: string, pattern: string)
    ensures multiset(DeleteAll(s, pattern)) <= multiset(s)
    decreases |s|
  {
    if |pattern| > 0 && |s| >= |pattern| {
      if PyStr.StartsWith(s, pattern) {
        var rest := s[|pattern|..];
        DeleteAllOnlyDeletes(rest, pattern);
        assert multiset(s) == multiset(s[..|pattern|]) + multiset(rest) by { assert s == s[..|pattern|] + rest; }
      } else {
        DeleteAllOnlyDeletes(s[1..], pattern);
        assert multiset(s) == multiset([s[0]]) + multiset(s[1..]) by { assert s == [s[0]] + s[1..]; }
      }
    }
  }

  /** Only whole occurrences are deleted: the length lost is a multiple of the
      pattern's length. */
  lemma {:induction false} DeleteAllWholeOccurrences(s: string, pattern: string)
    requires |pattern| > 0
    ensures (|s| - |DeleteAll(s, pattern)|) % |pattern| == 0
    decreases |s|
  {
    if |s| >= |pattern| {
      if PyStr.StartsWith(s, pattern) {
        var rest := s[|pattern|..];
        DeleteAllWholeOccurrences(rest, pattern);
        MultipleShift(|pattern|, |rest| - |DeleteAll(rest, pattern)|);
      } else {
        DeleteAllWholeOccurrences(s[1..], pattern);
      }
    }
  }

  lemma MultipleShift(p: int, x: int)
    requires p > 0 && x % p == 0
    ensures (p + x) % p == 0
  {
    var q, q', r' := x / p, (p + x) / p, (p + x) % p;
    assert p + x == p * q' + r' && x == p * q;
    var d := q + 1 - q';
    assert r' == p * d;
  }

  /** Deleting a pattern that does not occur changes nothing. */
  lemma {:induction false} DeleteAllAbsent(s: string, pattern: string)
    requires !PyStr.Contains(s, pattern)
    ensures DeleteAll(s, pattern) == s
    decreases |s|
  {
    if |pattern| > 0 && |s| >= |pattern| {
      assert !PyStr.OccursAt(s, pattern, 0);
      assert !PyStr.Contains(s[1..], pattern) by {
        forall i: nat | i <= |s[1..]| ensures !PyStr.OccursAt(s[1..], pattern, i) {
          assert !PyStr.OccursAt(s, pattern, i + 1);
          if i + |pattern| <= |s[1..]| {
            assert s[1..][i..i + |pattern|] == s[i + 1..i + 1 + |pattern|];
          }
        }
      }
      DeleteAllAbsent(s[1..], pattern);
      assert [s[0]] + s[1..] == s;
    }
  }

  /** `String::remove(0)`: None where Rust panics on an empty string. */
  function RemoveFirst(s: string): (r: Option<string>)
    ensures r.Some? <==> |s| > 0
    ensures r.Some? ==> r.value == s[1..]
  {
    if |s| == 0 then None else Some(s[1..])
  }

  /** The enclosing function's name. `typeName` is `type_name` of the local item `f` and
      `modulePath` is `module_path!()`: drop the `::f` suffix, delete the module
      path, and when more than two bytes remain drop the first two characters
      (the `::` left in front). None where the code panics: no `::f` suffix
      (the `unwrap`), or a second `remove` on an emptied string. */
  function FunctionName(typeName: string, modulePath: string): (r: Option<string>)
    ensures !PyStr.EndsWith(typeName, "::f") ==> r.None?
    ensures PyStr.EndsWith(typeName, "::f") ==>
      var stripped := DeleteAll(typeName[..|typeName| - 3], modulePath);
      && (Utf8.ByteLen(stripped) <= 2 ==> r == Some(stripped))
      && (Utf8.ByteLen(stripped) > 2 && |stripped| >= 2 ==> r == Some(stripped[2..]))
      && (Utf8.ByteLen(stripped) > 2 && |stripped| < 2 ==> r.None?)
  {
    if !PyStr.EndsWith(typeName, "::f") then None
    else
      var name := DeleteAll(typeName[..|typeName| - 3], modulePath);
      if Utf8.ByteLen(name) > 2 then
        match RemoveFirst(name)
        case None => None
        case Some(once) => RemoveFirst(once)
      else Some(name)
  }

  /** In the usual case — a function `fname` directly in module `modulePath`,
      the module path not occurring again — the derived name is `fname`. */
  lemma FunctionNameOfItem(modulePath: string, fname: string)
    requires |modulePath| > 0 && |fname| > 0
    requires !PyStr.Contains("::" + fname, modulePath)
    ensures FunctionName(modulePath + "::" + fname + "::f", modulePath) == Some(fname)
  {
    var typeName := modulePath + "::" + fname + "::f";
    assert typeName[..|typeName| - 3] == modulePath + ("::" + fname);
    assert PyStr.EndsWith(typeName, "::f") by { assert typeName[|typeName| - 3..] == "::f"; }
    var rest := "::" + fname;
    assert (modulePath + rest)[|modulePath|..] == rest;
    DeleteAllAbsent(rest, modulePath);
    assert DeleteAll(modulePath + rest, modulePath) == rest;
    assert rest[2..] == fname;
    assert Utf8.ByteLen(rest) > 2 by {
      assert rest[1..][1..] == fname;
    }
  }

  /** The record `loc_err!(err)` builds at a site. */
  function LocErr<E>(err: E, file: string, line: u32, typeName: string, modulePath: string): (r: Option<LocationError<E>>)
    ensures r.Some? <==> FunctionName(typeName, modulePath).Some?
    ensures r.Some? ==>
      && r.value.source == err && r.value.file == file && r.value.line == line
      && r.value.functionName == FunctionName(typeName, modulePath).value
  {
    match FunctionName(typeName, modulePath)
    case None => None
    case Some(fname) => Some(LocationError(file, line, fname, err))
  }

  /** `map_loc_err!()` is `|e| loc_err!(e)` applied to the error of
      a result; an `Ok` passes through. The item `f` is then declared inside
      the closure, so `typeName` is the closure's. */
  function MapLocErr<T, E>(r: Result<T, E>, file: string, line: u32, typeName: string, modulePath: string)
    : (m: Result<T, Option<LocationError<E>>>)
    ensures r.Success? ==> m == Success(r.value)
    ensures r.Failure? ==> m == Failure(LocErr(r.error, file, line, typeName, modulePath))
  {
    match r
    case Success(v) => Success(v)
    case Failure(e) => Failure(LocErr(e, file, line, typeName, modulePath))
  }

  /** Inside a function `fname`, `map_loc_err!()` reports the function as
      `fname::{{closure}}`, not `fname`, because its item lives in the closure. */
  lemma MapLocErrNamesClosure<T, E>(r: Result<T, E>, file: string, line: u32, modulePath: string, fname: string)
    requires r.Failure? && |modulePath| > 0 && |fname| > 0
    requires !PyStr.Contains("::" + fname + "::{{closure}}", modulePath)
    ensures var m := MapLocErr(r, file, line, modulePath + "::" + fname + "::{{closure}}" + "::f", modulePath);
      m == Failure(Some(LocationError(file, line, fname + "::{{closure}}", r.error)))
  {
    var name := fname + "::{{closure}}";
    assert "::" + fname + "::{{closure}}" == "::" + name;
    FunctionNameOfItem(modulePath, name);
    var typeName := modulePath + "::" + name + "::f";
    assert modulePath + "::" + fname + "::{{closure}}" + "::f" == typeName;
    assert LocErr(r.error, file, line, typeName, modulePath) == Some(LocationError(file, line, name, r.error));
  }
}

=== FILE: example_programs.dfy ===
/** `compile-example-programs.py`: walks the example-programs directory and
    hands every entry to the compiler step, which so far accepts C sources
    and does nothing with them. */
module ExamplePrograms {
  import opened Wrappers
  import PyStr
  import PosixPath

  const EXAMPLES_DIR := "example-programs"
  const ERROR_HEAD := "[ compile_example_program ] We do not know how to compile the example program at "
  const ERROR_TAIL := "! Please add an implementation to compile_example_program()."
  const DONE_LINE := "Done! Outputs are in target/example-programs"

  /** A path ending in `.c` is accepted; any other raises, and the
      message names the path. */
  function CompileExampleProgram(path: string): (r: Result<(), string>)
    ensures r.Success? <==> PyStr.EndsWith(path, ".c")
    ensures r.Failure? ==> r.error == RejectMessage(path)
  {
    if PyStr.EndsWith(path, ".c") then Success(()) else Failure(RejectMessage(path))
  }

  /** The message of the exception raised for an unsupported program; it names the program. */
  function RejectMessage(path: string): (m: string)
    ensures PyStr.Contains(m, path)
  {
    PyStr.ContainsInfix(ERROR_HEAD, path, ERROR_TAIL);
    ERROR_HEAD + path + ERROR_TAIL
  }

  /** The line printed before each program: its path relative to the
      repository, `example-programs/<name>`. */
  function CompileLine(name: string): (r: string) {
    "[ compile ] " + EXAMPLES_DIR + "/" + name
  }

  function ExamplesDir(repoDir: string): (r: string) {
    PosixPath.Join2(repoDir, EXAMPLES_DIR)
  }

  function OutputDir(repoDir: string): (r: string) {
    PosixPath.Join(repoDir, ["target", "example-programs"])
  }

  /** The path of a listed entry. */
  function ProgramPath(examples: string, name: string): (r: string) {
    PosixPath.Join2(examples, name)
  }

  /** `os.makedirs(out, exist_ok=True)` on a file system seen as its set of
      directories: the output directory and its parent exist afterwards. */
  function MakeOutputDirs(dirs: set<string>, repoDir: string): (r: set<string>)
    ensures dirs <= r && OutputDir(repoDir) in r
    ensures forall d :: d in r && d !in dirs ==> d == OutputDir(repoDir) || d == PosixPath.Join(repoDir, ["target"])
  {
    dirs + {PosixPath.Join(repoDir, ["target"]), OutputDir(repoDir)}
  }

  /** Creating directories that exist is harmless: a second call changes nothing. */
  lemma MakeOutputDirsIdempotent(dirs: set<string>, repoDir: string)
    ensures MakeOutputDirs(MakeOutputDirs(dirs, repoDir), repoDir) == MakeOutputDirs(dirs, repoDir)
  {
  }

  /** Why the script stopped. */
  datatype Failure = ListingFailed | CompileFailed(message: string)

  /** The directories after the run, the lines printed, and the exception
      that ended it, if any. */
  datatype Outcome = Outcome(dirs: set<string>, log: seq<string>, failure: Option<Failure>)

  /** The program `names[i]` is the first the compiler step rejects. */
  predicate FirstRejected(names: seq<string>, i: nat) {
    && i < |names|
    && !PyStr.EndsWith(names[i], ".c")
    && forall j :: 0 <= j < i ==> PyStr.EndsWith(names[j], ".c")
  }

  /** `log` is the compile line of each of the first `n` programs, in order. */
  predicate LogsFirst(log: seq<string>, names: seq<string>, n: nat)
    requires n <= |names|
  {
    |log| == n && forall k :: 0 <= k < n ==> log[k] == CompileLine(names[k])
  }

  /** The run stopped at `names[i]`, the first program rejected, after
      printing the compile lines up to and including its own, and the
      failure carries the compiler step's message. */
  predicate StoppedAt(log: seq<string>, failure: Option<string>, examples: string, names: seq<string>, i: nat) {
    && FirstRejected(names, i)
    && LogsFirst(log, names, i + 1)
    && failure == Some(RejectMessage(ProgramPath(examples, names[i])))
  }

  /** Each listed entry goes to the compiler step in listing
      order, and the first exception ends the loop. Whether an entry is
      accepted depends on its name alone. */
  method CompileAll(examples: string, names: seq<string>) returns (log: seq<string>, failure: Option<string>)
    ensures failure.None? <==> forall k :: 0 <= k < |names| ==> PyStr.EndsWith(names[k], ".c")
    ensures failure.None? ==> LogsFirst(log, names, |names|)
    ensures failure.Some? ==> exists i: nat :: StoppedAt(log, failure, examples, names, i)
  {
    log := [];
    var i := 0;
    while i < |names|
      invariant 0 <= i <= |names|
      invariant LogsFirst(log, names, i)
      invariant forall j :: 0 <= j < i ==> PyStr.EndsWith(names[j], ".c")
    {
      log := log + [CompileLine(names[i])];
      var compiled := CompileExampleProgram(ProgramPath(examples, names[i]));
      PosixPath.JoinKeepsSuffix(examples, names[i], ".c");
      if compiled.Failure? {
        failure := Some(compiled.error);
        assert StoppedAt(log, failure, examples, names, i);
        return;
      }
      i := i + 1;
    }
    failure := None;
  }

  /** The example driver. `listing` is what `os.listdir` returns, None when it raises
      (no such directory). The closing line is printed, as the last line,
      exactly when every program was accepted. */
  method RunScript(repoDir: string, dirs: set<string>, listing: Option<seq<string>>) returns (r: Outcome)
    ensures r.dirs == MakeOutputDirs(dirs, repoDir)
    ensures listing.None? ==> r.failure == Some(ListingFailed) && r.log == []
    ensures listing.Some? ==>
      (r.failure.None? <==> forall k :: 0 <= k < |listing.value| ==> PyStr.EndsWith(listing.value[k], ".c"))
    ensures listing.Some? && r.failure.None? ==>
      |r.log| > 0 && LogsFirst(r.log[..|r.log| - 1], listing.value, |listing.value|) && r.log[|r.log| - 1] == DONE_LINE
    ensures listing.Some? && r.failure.Some? ==>
      exists i: nat, m :: r.failure == Some(CompileFailed(m)) && StoppedAt(r.log, Some(m), ExamplesDir(repoDir), listing.value, i)
    ensures DONE_LINE in r.log <==> r.failure.None?
  {
    var made := MakeOutputDirs(dirs, repoDir);
    if listing.None? {
      return Outcome(made, [], Some(ListingFailed));
    }
    var names := listing.value;
    var log, failure := CompileAll(ExamplesDir(repoDir), names);
    forall k | 0 <= k < |log| ensures log[k] != DONE_LINE {
      CompileLineIsNotDone(names[k]);
    }
    if failure.Some? {
      r := Outcome(made, log, Some(CompileFailed(failure.value)));
    } else {
      r := Outcome(made, log + [DONE_LINE], None);
      assert r.log[..|r.log| - 1] == log;
    }
  }

  /** A compile line is never the closing line. */
  lemma CompileLineIsNotDone(name: string)
    ensures CompileLine(name) != DONE_LINE
  {
    assert CompileLine(name)[0] == '[';
  }
}

=== FILE: executor.dfy ===
/** `src/executor/mod.rs`: the builder for signed program records and the
    executor's initial state and trusted-key table. */
module Executor {
  import opened Wrappers
  import opened Machine
  import PyStr

  /** `config::IdentityData`, the sender of a program, as opaque bytes;
      `config` is not part of this model and its content is not looked into. */
  type Identity = seq<u8>

  /** An ed25519 verifying key, as its bytes; its content is not looked into. */
  type VerifyingKey = seq<u8>

  /** A program as submitted: who sent it, a display name, the WebAssembly
      bytes and a signature over them. */
  datatype ProgramData = ProgramData(source: Identity, humanName: string, wasmProgramBytes: seq<u8>, signature: seq<u8>)

  datatype ProgramDataBuilder = ProgramDataBuilder(
    source: Option<Identity>, humanName: string, wasmProgramBytes: seq<u8>, signature: seq<u8>)

  const UNSET_NAME := "UNSET_NAME"
  const NO_SOURCE := "Error: source is None!"

  /** A builder with nothing set yet. */
  function NewBuilder(): (b: ProgramDataBuilder)
    ensures b.source.None? && b.humanName == UNSET_NAME
    ensures |b.wasmProgramBytes| == 0 && |b.signature| == 0
  {
    ProgramDataBuilder(None, UNSET_NAME, [], [])
  }

  /** `Vec::clear` followed by `Vec::extend`. */
  function ClearExtend(v: seq<u8>, xs: seq<u8>): (r: seq<u8>) {
    v[..0] + xs
  }

  /** Sets the program's source; every other field is kept. */
  function SetSource(b: ProgramDataBuilder, source: Identity): (r: ProgramDataBuilder)
    ensures r.source == Some(source)
    ensures r.humanName == b.humanName && r.wasmProgramBytes == b.wasmProgramBytes && r.signature == b.signature
  {
    b.(source := Some(source))
  }

  /** Sets the human-readable name; every other field is kept. */
  function SetHumanName(b: ProgramDataBuilder, name: string): (r: ProgramDataBuilder)
    ensures r.humanName == name
    ensures r.source == b.source && r.wasmProgramBytes == b.wasmProgramBytes && r.signature == b.signature
  {
    b.(humanName := name)
  }

  /** The bytes replace the previous program, they are not appended to it. */
  function SetWasmProgramBytes(b: ProgramDataBuilder, bytes: seq<u8>): (r: ProgramDataBuilder)
    ensures r.wasmProgramBytes == bytes
    ensures r.source == b.source && r.humanName == b.humanName && r.signature == b.signature
  {
    b.(wasmProgramBytes := ClearExtend(b.wasmProgramBytes, bytes))
  }

  /** The bytes replace the previous signature. */
  function SetSignature(b: ProgramDataBuilder, signature: seq<u8>): (r: ProgramDataBuilder)
    ensures r.signature == signature
    ensures r.source == b.source && r.humanName == b.humanName && r.wasmProgramBytes == b.wasmProgramBytes
  {
    b.(signature := ClearExtend(b.signature, signature))
  }

  /** A record comes out exactly when a source was set, with every
      field as the builder held it. */
  function Build(b: ProgramDataBuilder): (r: Result<ProgramData, string>)
    ensures r.Success? <==> b.source.Some?
    ensures r.Failure? ==> r.error == NO_SOURCE
    ensures r.Success? ==>
      && r.value.source == b.source.value && r.value.humanName == b.humanName
      && r.value.wasmProgramBytes == b.wasmProgramBytes && r.value.signature == b.signature
  {
    match b.source
    case Some(source) => Success(ProgramData(source, b.humanName, b.wasmProgramBytes, b.signature))
    case None => Failure(NO_SOURCE)
  }

  /** A fresh builder cannot build. */
  lemma NewBuilderFails()
    ensures Build(NewBuilder()) == Failure(NO_SOURCE)
  {
  }

  /** For repeated calls of one setter the last value wins. */
  lemma LastSetterWins(b: ProgramDataBuilder, s1: Identity, s2: Identity, n1: string, n2: string,
                           w1: seq<u8>, w2: seq<u8>, g1: seq<u8>, g2: seq<u8>)
    ensures SetSource(SetSource(b, s1), s2) == SetSource(b, s2)
    ensures SetHumanName(SetHumanName(b, n1), n2) == SetHumanName(b, n2)
    ensures SetWasmProgramBytes(SetWasmProgramBytes(b, w1), w2) == SetWasmProgramBytes(b, w2)
    ensures SetSignature(SetSignature(b, g1), g2) == SetSignature(b, g2)
  {
  }

  /** Setters of different fields commute, so the order of the chain does not matter. */
  lemma SettersCommute(b: ProgramDataBuilder, s: Identity, n: string, w: seq<u8>, g: seq<u8>)
    ensures SetSource(SetHumanName(b, n), s) == SetHumanName(SetSource(b, s), n)
    ensures SetSource(SetWasmProgramBytes(b, w), s) == SetWasmProgramBytes(SetSource(b, s), w)
    ensures SetSource(SetSignature(b, g), s) == SetSignature(SetSource(b, s), g)
    ensures SetHumanName(SetWasmProgramBytes(b, w), n) == SetWasmProgramBytes(SetHumanName(b, n), w)
    ensures SetHumanName(SetSignature(b, g), n) == SetSignature(SetHumanName(b, n), g)
    ensures SetWasmProgramBytes(SetSignature(b, g), w) == SetSignature(SetWasmProgramBytes(b, w), g)
  {
  }

  /** The usual chain from a fresh builder yields exactly the values given. */
  lemma BuildChain(s: Identity, n: string, w: seq<u8>, g: seq<u8>)
    ensures Build(SetSignature(SetWasmProgramBytes(SetHumanName(SetSource(NewBuilder(), s), n), w), g))
         == Success(ProgramData(s, n, w, g))
  {
  }

  /** Without a source the chain fails whatever else was set. */
  lemma BuildWithoutSourceFails(n: string, w: seq<u8>, g: seq<u8>)
    ensures Build(SetSignature(SetWasmProgramBytes(SetHumanName(NewBuilder(), n), w), g)) == Failure(NO_SOURCE)
  {
  }

  // ---------------------------------------------------------------------------
  // Rust's `Path::file_name`

  /** The components of a path that `Path::components` reports as names:
      empty pieces between separators and `.` are not components. */
  function NameComponents(pieces: seq<string>): (cs: seq<string>)
    ensures |cs| <= |pieces|
    ensures forall k :: 0 <= k < |cs| ==> cs[k] != "" && cs[k] != "." && cs[k] in pieces
  {
    if |pieces| == 0 then []
    else
      var front := NameComponents(pieces[..|pieces| - 1]);
      var last := pieces[|pieces| - 1];
      if last == "" || last == "." then front else front + [last]
  }

  /** `Path::file_name`: the last component, unless there is none or it is `..`. */
  function FileName(path: string): (r: Option<string>)
    ensures r.Some? ==> r.value != "" && r.value != "." && r.value != ".." && '/' !in r.value
  {
    var pieces := PyStr.SplitOn(path, '/');
    var cs := NameComponents(pieces);
    PyStr.SplitOnPieces(path, '/');
    if |cs| == 0 || cs[|cs| - 1] == ".." then None else Some(cs[|cs| - 1])
  }

  /** The file name of `dir/name` is `name`, whatever the directory. */
  lemma FileNameOfChild(dir: string, name: string)
    requires name != "" && name != "." && name != ".." && '/' !in name
    ensures FileName(dir + "/" + name) == Some(name)
  {
    PyStr.SplitOnNoSep(name, '/');
    PyStr.SplitOnConcat(dir, name, '/');
    var pieces := PyStr.SplitOn(dir + "/" + name, '/');
    assert pieces == PyStr.SplitOn(dir, '/') + [name];
    assert pieces[..|pieces| - 1] == PyStr.SplitOn(dir, '/');
  }

  // ---------------------------------------------------------------------------
  // Executor (lines 116-155)

  const UNTRUSTED_ALLOWED_INSTRUCTIONS: u64 := 16 * 1024

  /** The executor's counters and its trusted keys, by name. The program table
      and the configuration are not part of this model. */
  datatype ExecutorState = ExecutorState(
    nextPid: u64,
    untrustedAllowedInstructions: u64,
    trustedAllowedInstructions: u64,
    trustedKeys: map<string, VerifyingKey>)

  /** The name now maps to the key, replacing any earlier key;
      every other entry is as it was. */
  function AddTrustedKey(ex: ExecutorState, name: string, key: VerifyingKey): (r: ExecutorState)
    ensures name in r.trustedKeys && r.trustedKeys[name] == key
    ensures r.trustedKeys.Keys == ex.trustedKeys.Keys + {name}
    ensures forall n :: n in ex.trustedKeys && n != name ==> r.trustedKeys[n] == ex.trustedKeys[n]
    ensures r.nextPid == ex.nextPid && r.untrustedAllowedInstructions == ex.untrustedAllowedInstructions
    ensures r.trustedAllowedInstructions == ex.trustedAllowedInstructions
  {
    ex.(trustedKeys := ex.trustedKeys[name := key])
  }

  /** The key file's name, or `SELF` when the path has none. */
  function OwnKeyName(keyfile: string): (n: string)
    ensures n != ""
  {
    match FileName(keyfile)
    case Some(f) => f
    case None => "SELF"
  }

  /** A fresh executor. `ownKey` is the outcome of reading our own public key from
      `keyfile`: when it was read, it is trusted under the file's name;
      otherwise the table starts empty. */
  function NewExecutor(keyfile: string, ownKey: Option<VerifyingKey>): (ex: ExecutorState)
    ensures ex.nextPid == 0
    ensures ex.untrustedAllowedInstructions as int == 16 * 1024
    ensures ex.trustedAllowedInstructions as int == U64_LIMIT - 1
    ensures ownKey.None? ==> ex.trustedKeys == map[]
    ensures ownKey.Some? ==> ex.trustedKeys.Keys == {OwnKeyName(keyfile)} && ex.trustedKeys[OwnKeyName(keyfile)] == ownKey.value
  {
    var ex := ExecutorState(0, UNTRUSTED_ALLOWED_INSTRUCTIONS, U64_MAX, map[]);
    match ownKey
    case Some(k) => AddTrustedKey(ex, OwnKeyName(keyfile), k)
    case None => ex
  }

  /** Adding the same name twice keeps only the second key. */
  lemma AddTrustedKeyOverwrites(ex: ExecutorState, name: string, k1: VerifyingKey, k2: VerifyingKey)
    ensures AddTrustedKey(AddTrustedKey(ex, name, k1), name, k2) == AddTrustedKey(ex, name, k2)
  {
  }

  /** A key file `dir/name` is trusted under `name`. */
  lemma OwnKeyNamedAfterFile(dir: string, name: string)
    requires name != "" && name != "." && name != ".." && '/' !in name
    ensures OwnKeyName(dir + "/" + name) == name
  {
    FileNameOfChild(dir, name);
  }
}

=== FILE: fs_utils.dfy ===
/** `src/fs_utils.rs`: a byte count rendered with the largest unit it reaches. */
module FsUtils {
  import opened Machine
  import PyStr
  import Decimal

  datatype Unit = B | KB | MB | GB

  /** The unit of a size: the thresholds are powers of a thousand. */
  function UnitOf(size: nat): (u: Unit)
    ensures u == B <==> size < 1_000
    ensures u == KB <==> 1_000 <= size < 1_000_000
    ensures u == MB <==> 1_000_000 <= size < 1_000_000_000
    ensures u == GB <==> 1_000_000_000 <= size
  {
    if size < 1_000 then B
    else if size < 1_000_000 then KB
    else if size < 1_000_000_000 then MB
    else GB
  }

  function Suffix(u: Unit): (r: string) {
    match u
    case B => "b"
    case KB => "kb"
    case MB => "mb"
    case GB => "gb"
  }

  function Divisor(u: Unit): (r: nat) {
    match u
    case B => 1
    case KB => 1_000
    case MB => 1_000_000
    case GB => 1_000_000_000
  }

  /** A byte count as a short human-readable size. `oneDecimal(size, divisor)`
      is the `{:.1}` rendering of the `f32` quotient, which this model does not
      compute. */
  function FormatSizeBytes(size: u64, oneDecimal: (nat, nat) -> string): (r: string)
    ensures size < 1_000 ==> r == Decimal.NatToString(size as nat) + "b"
    ensures 1_000 <= size < 1_000_000 ==> r == oneDecimal(size as nat, 1_000) + "kb"
    ensures 1_000_000 <= size < 1_000_000_000 ==> r == oneDecimal(size as nat, 1_000_000) + "mb"
    ensures 1_000_000_000 <= size ==> r == oneDecimal(size as nat, 1_000_000_000) + "gb"
  {
    var u := UnitOf(size as nat);
    var number := if u == B then Decimal.NatToString(size as nat) else oneDecimal(size as nat, Divisor(u));
    number + Suffix(u)
  }

  /** Reads the unit back from the end of a rendering. */
  function ReadUnit(r: string): (res: Unit) {
    if PyStr.EndsWith(r, "kb") then KB
    else if PyStr.EndsWith(r, "mb") then MB
    else if PyStr.EndsWith(r, "gb") then GB
    else B
  }

  /** The rendering always names the unit the size falls in, whatever the
      digits before it: below a thousand the character before `b` is a digit,
      never `k`, `m` or `g`. */
  lemma UnitReadsBack(size: u64, oneDecimal: (nat, nat) -> string)
    ensures ReadUnit(FormatSizeBytes(size, oneDecimal)) == UnitOf(size as nat)
    ensures PyStr.EndsWith(FormatSizeBytes(size, oneDecimal), Suffix(UnitOf(size as nat)))
  {
    var r := FormatSizeBytes(size, oneDecimal);
    var u := UnitOf(size as nat);
    if u == B {
      var digits := Decimal.NatToString(size as nat);
      assert r[|r| - 2] == digits[|digits| - 1];
      assert Decimal.IsDigit(digits[|digits| - 1]);
    } else {
      var number := oneDecimal(size as nat, Divisor(u));
      assert r[|r| - 2..] == Suffix(u);
    }
  }

  /** Below a thousand bytes the rendering reads back as the exact size. */
  lemma BytesReadBack(size: u64, oneDecimal: (nat, nat) -> string)
    requires size < 1_000
    ensures var r := FormatSizeBytes(size, oneDecimal);
      Decimal.IsDigits(r[..|r| - 1]) && Decimal.ParseDigits(r[..|r| - 1]) == size as nat
  {
    var r := FormatSizeBytes(size, oneDecimal);
    assert r[..|r| - 1] == Decimal.NatToString(size as nat);
    Decimal.ParseNatToString(size as nat);
  }

  function Rank(u: Unit): (r: nat) {
    match u
    case B => 0
    case KB => 1
    case MB => 2
    case GB => 3
  }

  /** A larger size never gets a smaller unit, and each unit below `gb` spans
      a factor of a thousand from its divisor. */
  lemma UnitMonotone(a: nat, b: nat)
    requires a <= b
    ensures Rank(UnitOf(a)) <= Rank(UnitOf(b))
    ensures UnitOf(a) != B ==> Divisor(UnitOf(a)) <= a
    ensures UnitOf(a) != GB ==> a < 1_000 * Divisor(UnitOf(a))
  {
  }
}

=== FILE: github_pages.dfy ===
/** The pure parts of `update-github-pages.py`: reading the last commit out of
    a `.git` directory, the short version string with its diff counts, and the
    rendering of a file's size in whole megabytes. Files, subprocesses and
    decompression are oracles. */
module GithubPages {
  import opened Wrappers
  import PyStr
  import Decimal
  import PosixPath

  // ---------------------------------------------------------------------------
  // The last commit (lines 221-251)
  // ---------------------------------------------------------------------------

  const NO_MESSAGE: string := "(No commit message found)"
  const REF_PREFIX: string := "ref: "

  /** Where `HEAD` points: a ref file holding the commit, or the commit itself. */
  datatype Head = RefFile(path: string) | Detached(hash: string)

  /** What `.git/HEAD` points at. `headLine` is the first line of `.git/HEAD` as read,
      line break included; it is stripped first. */
  function ParseHead(gitDir: string, headLine: string): (h: Head)
    ensures h.Detached? ==> h.hash == PyStr.Strip(headLine) && !PyStr.StartsWith(h.hash, REF_PREFIX)
    ensures h.RefFile? ==> PyStr.StartsWith(PyStr.Strip(headLine), REF_PREFIX)
  {
    var line := PyStr.Strip(headLine);
    if PyStr.StartsWith(line, REF_PREFIX) then RefFile(PosixPath.Join2(gitDir, line[5..]))
    else Detached(line)
  }

  /** A symbolic `HEAD` names the ref file under the git directory. */
  lemma HeadOnBranch(gitDir: string, ref: string)
    requires PyStr.IsTrimmed(ref) && ref[0] != '/'
    ensures ParseHead(gitDir, REF_PREFIX + ref + "\n") == RefFile(PosixPath.Join2(gitDir, ref))
  {
    var line := REF_PREFIX + ref;
    assert PyStr.IsTrimmed(line) by { assert line[0] == 'r' && line[|line| - 1] == ref[|ref| - 1]; }
    PyStr.StripTrailing(line, "\n");
    assert line[5..] == ref;
  }

  /** A detached `HEAD` line is the commit hash. */
  lemma HeadDetached(gitDir: string, hash: string)
    requires PyStr.IsTrimmed(hash) && !PyStr.StartsWith(hash, REF_PREFIX)
    ensures ParseHead(gitDir, hash + "\n") == Detached(hash)
  {
    PyStr.StripTrailing(hash, "\n");
  }

  /** The commit hash; `readLine` gives the first line of a ref file. */
  function CommitHash(head: Head, readLine: string -> string): (hash: string)
    ensures head.Detached? ==> hash == head.hash
    ensures head.RefFile? ==> hash == PyStr.Strip(readLine(head.path))
  {
    match head
    case RefFile(path) => PyStr.Strip(readLine(path))
    case Detached(hash) => hash
  }

  /** Python's `s[:n]` and `s[n:]`, which clamp instead of failing. */
  function Prefix(s: string, n: nat): (r: string)
    ensures r <= s && |r| == if n <= |s| then n else |s|
  {
    if n <= |s| then s[..n] else s
  }

  function Suffix(s: string, n: nat): (r: string)
    ensures Prefix(s, n) + r == s
  {
    if n <= |s| then s[n..] else ""
  }

  /** The loose object holding a commit: it sits in the directory named by the
      hash's first two characters, under the name of the rest. */
  function ObjectPath(gitDir: string, hash: string): (r: string)
    ensures gitDir != [] && !PyStr.EndsWith(gitDir, "/") && |hash| > 2 && '/' !in hash ==>
      r == gitDir + "/objects/" + hash[..2] + "/" + hash[2..]
  {
    ObjectsJoin(gitDir, hash);
    PosixPath.Join(gitDir, ["objects", Prefix(hash, 2), Suffix(hash, 2)])
  }

  /** Joining the two halves of a hash below `objects` separates each part by one slash. */
  lemma ObjectsJoin(gitDir: string, hash: string)
    ensures gitDir != [] && !PyStr.EndsWith(gitDir, "/") && |hash| > 2 && '/' !in hash ==>
      PosixPath.Join(gitDir, ["objects", Prefix(hash, 2), Suffix(hash, 2)]) == gitDir + "/objects/" + hash[..2] + "/" + hash[2..]
  {
    if gitDir != [] && !PyStr.EndsWith(gitDir, "/") && |hash| > 2 && '/' !in hash {
      var parts := ["objects", hash[..2], hash[2..]];
      assert '/' !in hash[..2] && '/' !in hash[2..] by {
        forall i | 0 <= i < |hash| ensures hash[i] != '/' { assert hash[i] in hash; }
      }
      forall k | 0 <= k < |parts| ensures PosixPath.IsName(parts[k]) {
        if k == 0 { assert "objects"[0] != '/' && "objects"[6] != '/'; assert '/' !in "objects"; }
      }
      PosixPath.JoinNames(gitDir, parts);
      PosixPath.SlashedThree(gitDir, "objects", hash[..2], hash[2..]);
    }
  }

  /** The stripped text after the first blank line, or the
      placeholder when there is none. */
  function CommitMessage(data: string): (m: string)
    ensures !PyStr.Contains(data, "\n\n") ==> m == NO_MESSAGE
    ensures PyStr.Contains(data, "\n\n") ==> |m| <= |data| - 2 && (|m| == 0 || (!PyStr.IsSpace(m[0]) && !PyStr.IsSpace(m[|m| - 1])))
  {
    var i := PyStr.Find(data, "\n\n");
    if i != -1 then PyStr.Strip(data[i + 2..]) else NO_MESSAGE
  }

  /** A commit object is its header, a blank line and the message: the header
      lines never hold a blank line, so the message is found after it. */
  lemma MessageAfterHeader(header: string, body: string)
    requires !PyStr.Contains(header, "\n\n") && !PyStr.EndsWith(header, "\n")
    ensures CommitMessage(header + "\n\n" + body) == PyStr.Strip(body)
  {
    var s := header + "\n\n" + body;
    assert PyStr.OccursAt(s, "\n\n", |header|) by { assert s[|header|..|header| + 2] == "\n\n"; }
    forall j: nat | j < |header| ensures !PyStr.OccursAt(s, "\n\n", j) {
      if j + 2 <= |header| {
        assert s[j..j + 2] == header[j..j + 2];
        assert !PyStr.OccursAt(header, "\n\n", j);
      } else {
        assert s[j] == header[|header| - 1];
        assert header[|header| - 1..] == [header[|header| - 1]];
      }
    }
    assert PyStr.Find(s, "\n\n") == |header|;
    assert s[|header| + 2..] == body;
  }

  /** The hash and message of the last commit, with the file reads as oracles: `readLine` gives the first
      line of a file and `objectText` the decompressed, decoded object. */
  function LastCommit(repoPath: string, headLine: string, readLine: string -> string, objectText: string -> string)
    : (r: (string, string))
    ensures var head := ParseHead(PosixPath.Join2(repoPath, ".git"), headLine);
      && (head.Detached? ==> r.0 == head.hash)
      && (head.RefFile? ==> r.0 == PyStr.Strip(readLine(head.path)))
    ensures var data := objectText(ObjectPath(PosixPath.Join2(repoPath, ".git"), r.0));
      && (!PyStr.Contains(data, "\n\n") ==> r.1 == NO_MESSAGE)
      && (PyStr.Contains(data, "\n\n") ==> |r.1| <= |data| - 2 && (r.1 == "" || PyStr.IsTrimmed(r.1)))
  {
    var gitDir := PosixPath.Join2(repoPath, ".git");
    var hash := CommitHash(ParseHead(gitDir, headLine), readLine);
    (hash, CommitMessage(objectText(ObjectPath(gitDir, hash))))
  }

  /** On a branch, the commit is the one the ref file names and its message is
      the stripped text after the object's header. */
  lemma LastCommitOnBranch(repo: string, ref: string, hash: string, header: string, body: string,
                           readLine: string -> string, objectText: string -> string)
    requires repo != [] && !PyStr.EndsWith(repo, "/")
    requires PyStr.IsTrimmed(ref) && ref[0] != '/'
    requires PyStr.IsTrimmed(hash) && |hash| > 2 && '/' !in hash
    requires readLine(repo + "/.git/" + ref) == hash + "\n"
    requires objectText(repo + "/.git/objects/" + hash[..2] + "/" + hash[2..]) == header + "\n\n" + body
    requires !PyStr.Contains(header, "\n\n") && !PyStr.EndsWith(header, "\n")
    ensures LastCommit(repo, REF_PREFIX + ref + "\n", readLine, objectText) == (hash, PyStr.Strip(body))
  {
    var gitDir := GitDirOf(repo);
    assert gitDir + "/" + ref == repo + "/.git/" + ref;
    BranchHash(gitDir, ref, hash, readLine);
    var obj := ObjectAt(repo, gitDir, hash);
    assert objectText(obj) == header + "\n\n" + body;
    MessageAfterHeader(header, body);
  }

  /** On a detached `HEAD`, the commit is the hash `HEAD` holds and its
      message is the stripped text after the object's header. */
  lemma LastCommitDetached(repo: string, hash: string, header: string, body: string,
                           readLine: string -> string, objectText: string -> string)
    requires repo != [] && !PyStr.EndsWith(repo, "/")
    requires PyStr.IsTrimmed(hash) && !PyStr.StartsWith(hash, REF_PREFIX) && |hash| > 2 && '/' !in hash
    requires objectText(repo + "/.git/objects/" + hash[..2] + "/" + hash[2..]) == header + "\n\n" + body
    requires !PyStr.Contains(header, "\n\n") && !PyStr.EndsWith(header, "\n")
    ensures LastCommit(repo, hash + "\n", readLine, objectText) == (hash, PyStr.Strip(body))
  {
    var gitDir := GitDirOf(repo);
    HeadDetached(gitDir, hash);
    var obj := ObjectAt(repo, gitDir, hash);
    assert objectText(obj) == header + "\n\n" + body;
    MessageAfterHeader(header, body);
  }

  lemma ObjectAt(repo: string, gitDir: string, hash: string) returns (obj: string)
    requires gitDir == repo + "/.git" && !PyStr.EndsWith(gitDir, "/")
    requires |hash| > 2 && '/' !in hash
    ensures obj == ObjectPath(gitDir, hash) == repo + "/.git/objects/" + hash[..2] + "/" + hash[2..]
  {
    obj := ObjectPath(gitDir, hash);
  }

  lemma GitDirOf(repo: string) returns (gitDir: string)
    requires repo != [] && !PyStr.EndsWith(repo, "/")
    ensures gitDir == repo + "/.git" == PosixPath.Join2(repo, ".git")
    ensures gitDir != [] && !PyStr.EndsWith(gitDir, "/")
  {
    gitDir := repo + "/.git";
    PosixPath.Join2Shape(repo, ".git");
    assert gitDir[|gitDir| - 1] == 't';
  }

  lemma BranchHash(gitDir: string, ref: string, hash: string, readLine: string -> string)
    requires gitDir != [] && !PyStr.EndsWith(gitDir, "/")
    requires PyStr.IsTrimmed(ref) && ref[0] != '/'
    requires PyStr.IsTrimmed(hash)
    requires readLine(gitDir + "/" + ref) == hash + "\n"
    ensures CommitHash(ParseHead(gitDir, REF_PREFIX + ref + "\n"), readLine) == hash
  {
    HeadOnBranch(gitDir, ref);
    PosixPath.Join2Shape(gitDir, ref);
    PyStr.StripTrailing(hash, "\n");
  }

  // ---------------------------------------------------------------------------
  // `git diff --numstat` and the version string (lines 28-42)
  // ---------------------------------------------------------------------------

  /** A column counts when it is all digits, else (a `-` for a
      binary file) contributes nothing. */
  function ColumnValue(w: string): (n: nat)
    ensures Decimal.IsDigits(w) ==> n == Decimal.ParseDigits(w)
    ensures !Decimal.IsDigits(w) ==> n == 0
  {
    if Decimal.IsDigits(w) then Decimal.ParseDigits(w) else 0
  }

  /** The added and deleted counts of one line; None where `l.split()[0]` or
      `l.split()[1]` raises, because the line has fewer than two fields. */
  function LineCounts(line: string): (r: Option<(nat, nat)>)
    ensures r.None? <==> |PyStr.SplitWhitespace(line)| < 2
  {
    var w := PyStr.SplitWhitespace(line);
    if |w| < 2 then None else Some((ColumnValue(w[0]), ColumnValue(w[1])))
  }

  function AddCounts(a: (nat, nat), b: (nat, nat)): (r: (nat, nat)) {
    (a.0 + b.0, a.1 + b.1)
  }

  /** The total of field `col` (0 for added, 1 for deleted) over the lines
      that have at least two fields. */
  function ColumnTotal(lines: seq<string>, col: nat): nat
    requires col < 2
    decreases |lines|
  {
    if |lines| == 0 then 0
    else
      var w := PyStr.SplitWhitespace(lines[0]);
      (if |w| < 2 then 0 else ColumnValue(w[col])) + ColumnTotal(lines[1..], col)
  }

  /** Both sums over the lines; None as soon as one line lacks a field. */
  function SumCounts(lines: seq<string>): (r: Option<(nat, nat)>)
    ensures r.None? <==> exists k :: 0 <= k < |lines| && LineCounts(lines[k]).None?
    decreases |lines|
  {
    if |lines| == 0 then Some((0, 0))
    else
      match LineCounts(lines[0])
      case None =>
        assert LineCounts(lines[0]).None?;
        None
      case Some(c) =>
        match SumCounts(lines[1..])
        case None =>
          var k :| 0 <= k < |lines[1..]| && LineCounts(lines[1..][k]).None?;
          assert LineCounts(lines[k + 1]).None?;
          None
        case Some(rest) =>
          assert forall k :: 0 < k < |lines| ==> lines[k] == lines[1..][k - 1];
          Some(AddCounts(c, rest))
  }

  /** The sums are the column totals of an independent definition. */
  lemma {:induction false} SumCountsTotals(lines: seq<string>)
    requires SumCounts(lines).Some?
    ensures SumCounts(lines).value.0 == ColumnTotal(lines, 0)
    ensures SumCounts(lines).value.1 == ColumnTotal(lines, 1)
    decreases |lines|
  {
    if |lines| > 0 {
      var tail := lines[1..];
      var c := SumCountsHead(lines);
      SumCountsTotals(tail);
      ColumnTotalHead(lines, 0);
      ColumnTotalHead(lines, 1);
    }
  }

  /** A summable first line adds its two fields to the sums of the rest. */
  lemma SumCountsHead(lines: seq<string>) returns (c: (nat, nat))
    requires |lines| > 0 && SumCounts(lines).Some?
    ensures |PyStr.SplitWhitespace(lines[0])| >= 2
    ensures c == (ColumnValue(PyStr.SplitWhitespace(lines[0])[0]), ColumnValue(PyStr.SplitWhitespace(lines[0])[1]))
    ensures SumCounts(lines[1..]).Some?
    ensures SumCounts(lines).value.0 == c.0 + SumCounts(lines[1..]).value.0
    ensures SumCounts(lines).value.1 == c.1 + SumCounts(lines[1..]).value.1
  {
    var w := PyStr.SplitWhitespace(lines[0]);
    c := (ColumnValue(w[0]), ColumnValue(w[1]));
    assert LineCounts(lines[0]) == Some(c);
  }

  /** The first line's field opens the column total. */
  lemma ColumnTotalHead(lines: seq<string>, col: nat)
    requires |lines| > 0 && col < 2 && |PyStr.SplitWhitespace(lines[0])| >= 2
    ensures ColumnTotal(lines, col) == ColumnValue(PyStr.SplitWhitespace(lines[0])[col]) + ColumnTotal(lines[1..], col)
  {
  }

  /** `added` and `deleted` from the command's output: the sums of the two
      leading columns, or None when some line has fewer than two fields. */
  function Numstat(out: string): (r: Option<(nat, nat)>)
    ensures r.None? <==> exists k :: 0 <= k < |PyStr.SplitLines(out)| && |PyStr.SplitWhitespace(PyStr.SplitLines(out)[k])| < 2
  {
    var ls := PyStr.SplitLines(out);
    forall k | 0 <= k < |ls| ensures LineCounts(ls[k]).None? <==> |PyStr.SplitWhitespace(ls[k])| < 2 {
    }
    SumCounts(ls)
  }

  /** Each output line adds its own counts to the totals of the lines after it. */
  lemma NumstatCons(line: string, rest: string)
    requires forall j :: 0 <= j < |line| ==> !PyStr.IsLineBreak(line[j])
    ensures Numstat(line + "\n" + rest) ==
      match (LineCounts(line), Numstat(rest))
      case (Some(c), Some(t)) => Some(AddCounts(c, t))
      case _ => None
  {
    PyStr.SplitLinesCons(line, rest);
    var lines := PyStr.SplitLines(line + "\n" + rest);
    assert lines[0] == line && lines[1..] == PyStr.SplitLines(rest);
  }

  /** Empty output adds and deletes nothing. */
  lemma NumstatEmpty()
    ensures Numstat("") == Some((0, 0))
  {
  }

  /** A last line without a line break counts its own two fields. */
  lemma NumstatLastLine(line: string)
    requires line != ""
    requires forall j :: 0 <= j < |line| ==> !PyStr.IsLineBreak(line[j])
    ensures Numstat(line) == LineCounts(line)
  {
    assert PyStr.LineEnd(line) == |line|;
    assert PyStr.SplitLines(line) == [line];
    assert SumCounts([line][1..]) == Some((0, 0));
  }

  /** A line whose first two fields are words counts those two fields. */
  lemma TwoFields(w1: string, w2: string, path: string)
    requires PyStr.IsWord(w1) && PyStr.IsWord(w2)
    ensures LineCounts(w1 + "\t" + w2 + "\t" + path) == Some((ColumnValue(w1), ColumnValue(w2)))
  {
    var rest := w2 + ['\t'] + path;
    assert w1 + "\t" + w2 + "\t" + path == w1 + ['\t'] + rest;
    PyStr.SplitWhitespaceCons(w2, '\t', path);
    PyStr.SplitWhitespaceCons(w1, '\t', rest);
  }

  /** The line git prints for a text file counts what it says. */
  lemma TextFileLine(added: nat, deleted: nat, path: string)
    ensures LineCounts(Decimal.NatToString(added) + "\t" + Decimal.NatToString(deleted) + "\t" + path) == Some((added, deleted))
  {
    var a := Decimal.NatToString(added);
    var d := Decimal.NatToString(deleted);
    DigitsAreWord(a);
    DigitsAreWord(d);
    TwoFields(a, d, path);
    Decimal.ParseNatToString(added);
    Decimal.ParseNatToString(deleted);
  }

  /** The line git prints for a binary file counts nothing. */
  lemma BinaryFileLine(path: string)
    ensures LineCounts("-\t-\t" + path) == Some((0, 0))
  {
    assert PyStr.IsWord("-");
    assert !Decimal.IsDigits("-") by { assert "-"[0] == '-'; }
    TwoFields("-", "-", path);
    assert "-" + "\t" + "-" + "\t" + path == "-\t-\t" + path;
  }

  lemma DigitsAreWord(s: string)
    requires Decimal.IsDigits(s)
    ensures PyStr.IsWord(s)
  {
    forall j | 0 <= j < |s| ensures !PyStr.IsSpace(s[j]) {
      assert Decimal.IsDigit(s[j]);
    }
  }

  const SHORT_HASH_LEN: nat := 7

  /** The short hash, with the diff counts appended when the work
      tree is dirty; None where the numstat sums raise. */
  function VersionString(sha: string, dirty: bool, numstatOut: string): (v: Option<string>)
    ensures !dirty ==> v == Some(Prefix(sha, SHORT_HASH_LEN))
    ensures dirty ==> (v.Some? <==> Numstat(numstatOut).Some?)
    ensures v.Some? ==> PyStr.StartsWith(v.value, Prefix(sha, SHORT_HASH_LEN))
  {
    var h := Prefix(sha, SHORT_HASH_LEN);
    if !dirty then Some(h)
    else
      match Numstat(numstatOut)
      case None => None
      case Some(c) => Some(h + "-dirty+" + Decimal.NatToString(c.0) + "-" + Decimal.NatToString(c.1))
  }

  /** Reads a version string back into the short hash and, when dirty, the counts. */
  function ParseVersion(v: string): (r: Option<(string, Option<(nat, nat)>)>) {
    var parts := PyStr.SplitOn(v, '-');
    if |parts| == 1 then Some((v, None))
    else if |parts| == 3 && PyStr.StartsWith(parts[1], "dirty+")
      && Decimal.IsDigits(parts[1][6..]) && Decimal.IsDigits(parts[2])
    then Some((parts[0], Some((Decimal.ParseDigits(parts[1][6..]), Decimal.ParseDigits(parts[2])))))
    else None
  }

  /** A version string carries the short hash, whether the tree was dirty and,
      if so, exactly the two sums. */
  lemma VersionReadsBack(sha: string, dirty: bool, numstatOut: string)
    requires '-' !in Prefix(sha, SHORT_HASH_LEN)
    requires VersionString(sha, dirty, numstatOut).Some?
    ensures ParseVersion(VersionString(sha, dirty, numstatOut).value)
      == Some((Prefix(sha, SHORT_HASH_LEN), if dirty then Numstat(numstatOut) else None))
  {
    var h := Prefix(sha, SHORT_HASH_LEN);
    if dirty {
      var c := Numstat(numstatOut).value;
      DirtyReadsBack(h, c.0, c.1);
    } else {
      PyStr.SplitOnNoSep(h, '-');
    }
  }

  lemma DirtyReadsBack(h: string, added: nat, deleted: nat)
    requires '-' !in h
    ensures ParseVersion(h + "-dirty+" + Decimal.NatToString(added) + "-" + Decimal.NatToString(deleted))
      == Some((h, Some((added, deleted))))
  {
    var a := Decimal.NatToString(added);
    var d := Decimal.NatToString(deleted);
    var mid := "dirty+" + a;
    DirtySplit(h, a, d);
    assert mid[6..] == a;
    Decimal.ParseNatToString(added);
    Decimal.ParseNatToString(deleted);
  }

  lemma DirtySplit(h: string, a: string, d: string)
    requires '-' !in h && Decimal.IsDigits(a) && Decimal.IsDigits(d)
    ensures PyStr.SplitOn(h + "-dirty+" + a + "-" + d, '-') == [h, "dirty+" + a, d]
  {
    NoDash(a);
    NoDash(d);
    var mid := "dirty+" + a;
    forall i | 0 <= i < |mid| ensures mid[i] != '-' {
      if i < 6 { assert mid[i] == "dirty+"[i]; } else { assert mid[i] == a[i - 6]; }
    }
    assert h + "-dirty+" + a + "-" + d == h + ['-'] + (mid + ['-'] + d);
    PyStr.SplitOnConcat(mid, d, '-');
    PyStr.SplitOnConcat(h, mid + ['-'] + d, '-');
    PyStr.SplitOnNoSep(h, '-');
    PyStr.SplitOnNoSep(mid, '-');
    PyStr.SplitOnNoSep(d, '-');
  }

  lemma NoDash(s: string)
    requires Decimal.IsDigits(s)
    ensures '-' !in s
  {
    forall i | 0 <= i < |s| ensures s[i] != '-' {
      assert Decimal.IsDigit(s[i]);
    }
  }

  // ---------------------------------------------------------------------------
  // File sizes (lines 256-269)
  // ---------------------------------------------------------------------------

  /** What a path names on disk: a file of some size, or a directory. */
  datatype Tree = File(size: nat) | Dir(children: seq<Tree>)

  /** Reference total: the sizes of every file at any depth. */
  function Bytes(t: Tree): (r: nat)
    decreases t
  {
    match t
    case File(n) => n
    case Dir(cs) => BytesAll(cs)
  }

  function BytesAll(ts: seq<Tree>): (r: nat)
    decreases ts
  {
    if |ts| == 0 then 0 else Bytes(ts[0]) + BytesAll(ts[1..])
  }

  /** Node count, which a walk of the tree uses up. */
  function Count(t: Tree): (r: nat)
    decreases t
  {
    match t
    case File(_) => 1
    case Dir(cs) => 1 + CountAll(cs)
  }

  function CountAll(ts: seq<Tree>): (r: nat)
    decreases ts
  {
    if |ts| == 0 then 0 else Count(ts[0]) + CountAll(ts[1..])
  }

  /** Totals distribute over concatenation of the pending entries. */
  lemma {:induction false} TotalsAppend(a: seq<Tree>, b: seq<Tree>)
    ensures BytesAll(a + b) == BytesAll(a) + BytesAll(b)
    ensures CountAll(a + b) == CountAll(a) + CountAll(b)
    decreases |a|
  {
    if |a| == 0 {
      assert a + b == b;
    } else {
      assert (a + b)[0] == a[0];
      assert (a + b)[1..] == a[1..] + b;
      TotalsAppend(a[1..], b);
    }
  }

  /** A file's own size, or the walk of a directory adding the
      size of each file it meets. */
  method WalkBytes(root: Tree) returns (total: nat)
    ensures total == Bytes(root)
  {
    total := 0;
    var pending := [root];
    assert pending[1..] == [];
    while |pending| > 0
      invariant total + BytesAll(pending) == Bytes(root)
      decreases CountAll(pending)
    {
      var t := pending[0];
      assert CountAll(pending) == Count(t) + CountAll(pending[1..]);
      match t
      case File(n) =>
        total := total + n;
        pending := pending[1..];
      case Dir(cs) =>
        TotalsAppend(cs, pending[1..]);
        pending := cs + pending[1..];
    }
  }

  const BYTES_PER_MB: nat := 1_000_000

  /** Whole megabytes, rounded down. */
  function RenderSize(bytes: nat): (r: string)
    ensures PyStr.EndsWith(r, "mb") && |r| > 2
    ensures Decimal.IsDigits(r[..|r| - 2])
  {
    var digits := Decimal.NatToString(bytes / BYTES_PER_MB);
    var r := digits + "mb";
    assert r[..|r| - 2] == digits;
    r
  }

  /** The number shown is the largest count of whole megabytes in the size. */
  lemma RenderSizeBounds(bytes: nat)
    ensures var r := RenderSize(bytes);
      var m := Decimal.ParseDigits(r[..|r| - 2]);
      m * BYTES_PER_MB <= bytes < (m + 1) * BYTES_PER_MB
  {
    var r := RenderSize(bytes);
    assert r[..|r| - 2] == Decimal.NatToString(bytes / BYTES_PER_MB);
    Decimal.ParseNatToString(bytes / BYTES_PER_MB);
  }

  /** `lookup` says what the joined path names, None when it
      does not exist. */
  method RenderFileSize(td: string, filePath: string, lookup: string -> Option<Tree>) returns (r: string)
    ensures lookup(PosixPath.Join2(td, filePath)).None? ==> r == "0mb"
    ensures lookup(PosixPath.Join2(td, filePath)).Some? ==> r == RenderSize(Bytes(lookup(PosixPath.Join2(td, filePath)).value))
  {
    var path := PosixPath.Join2(td, filePath);
    var bytes := 0;
    if lookup(path).Some? {
      bytes := WalkBytes(lookup(path).value);
    }
    r := RenderSize(bytes);
    assert Decimal.NatToString(0) == "0";
  }
}

=== FILE: net_utils.dfy ===
/** `src/net_utils.rs` on a Unix host: the network interfaces as pairs of
    index and name, each name once, in the order the system lists them. */
module NetUtils {
  import opened Wrappers
  import opened Machine

  /** Position of the first occurrence of `n` in `names`, or `|names|` when
      it does not occur. */
  function FirstAt(names: seq<string>, n: string): (i: nat)
    ensures i <= |names| && n !in names[..i]
    ensures i < |names| <==> n in names
    ensures i < |names| ==> names[i] == n
  {
    if |names| == 0 then 0
    else if names[0] == n then 0
    else
      var i := FirstAt(names[1..], n);
      assert names[..i + 1] == [names[0]] + names[1..][..i];
      assert n in names ==> n in names[1..] by {
        if n in names { var j :| 0 <= j < |names| && names[j] == n; assert names[1..][j - 1] == n; }
      }
      i + 1
  }

  /** The first occurrence of a name is where it appears and no earlier. */
  lemma FirstAtIs(names: seq<string>, k: nat)
    requires k < |names| && names[k] !in names[..k]
    ensures FirstAt(names, names[k]) == k
  {
  }

  /** Each network interface's index and name, each name once. `listing` is
      the names `get_if_addrs` reports, in order, None when it fails; `nameToIndex` is `if_nametoindex`. The result is None
      where the code panics: a failed listing, or a name holding a NUL byte
      that `CString::new` refuses. */
  method GetInterfacesUnix(listing: Option<seq<string>>, nameToIndex: string -> u32)
    returns (r: Option<seq<(u32, string)>>)
    ensures listing.None? ==> r.None?
    ensures listing.Some? ==> (r.None? <==> exists k :: 0 <= k < |listing.value| && '\0' in listing.value[k])
    ensures r.Some? ==> listing.Some? && Describes(r.value, listing.value, nameToIndex)
  {
    if listing.None? {
      return None;
    }
    var names := listing.value;
    var result: seq<(u32, string)> := [];
    var seen: set<string> := {};
    var k := 0;
    while k < |names|
      invariant k <= |names|
      invariant forall n :: n in seen <==> n in names[..k]
      invariant forall j :: 0 <= j < k ==> '\0' !in names[j]
      invariant Progress(result, names, nameToIndex, k)
    {
      var name := names[k];
      if name !in seen {
        if '\0' in name {
          return None;
        }
        FirstAtIs(names, k);
        assert names[..k + 1] == names[..k] + [name];
        seen := seen + {name};
        var index := nameToIndex(name);
        if index != 0 {
          ProgressAdd(result, names, nameToIndex, k);
          result := result + [(index, name)];
        } else {
          ProgressSkip(result, names, nameToIndex, k);
        }
      } else {
        FirstBefore(names, name, k);
        ProgressSkip(result, names, nameToIndex, k);
        assert names[..k + 1] == names[..k] + [name];
      }
      k := k + 1;
    }
    ProgressDescribes(result, names, nameToIndex);
    return Some(result);
  }

  predicate Distinct(r: seq<(u32, string)>) {
    forall i, j :: 0 <= i < j < |r| ==> r[i].1 != r[j].1
  }

  /** An entry carries the non-zero index the system gives its name. */
  predicate Indexed(e: (u32, string), nameToIndex: string -> u32) {
    e.0 != 0 && e.0 == nameToIndex(e.1)
  }

  predicate Lists(r: seq<(u32, string)>, name: string) {
    exists i :: 0 <= i < |r| && r[i].1 == name
  }

  /** Entries appear in the order of their names' first occurrences. */
  predicate InFirstOrder(r: seq<(u32, string)>, names: seq<string>) {
    && (forall i :: 0 <= i < |r| ==> r[i].1 in names)
    && (forall i, j :: 0 <= i < j < |r| ==> FirstAt(names, r[i].1) < FirstAt(names, r[j].1))
  }

  /** What the result promises: names pairwise distinct, each with its
      non-zero index, in first-occurrence order, and every name whose index is
      non-zero present. */
  predicate Describes(r: seq<(u32, string)>, names: seq<string>, nameToIndex: string -> u32) {
    && Distinct(r)
    && (forall i :: 0 <= i < |r| ==> Indexed(r[i], nameToIndex))
    && InFirstOrder(r, names)
    && (forall k :: 0 <= k < |names| && nameToIndex(names[k]) != 0 ==> Lists(r, names[k]))
  }

  /** Appending keeps every name listed and lists the new one. */
  lemma ListsExtend(r: seq<(u32, string)>, e: (u32, string))
    ensures Lists(r + [e], e.1)
    ensures forall n :: Lists(r, n) ==> Lists(r + [e], n)
  {
    assert (r + [e])[|r|] == e;
    forall n | Lists(r, n) ensures Lists(r + [e], n) {
      var i :| 0 <= i < |r| && r[i].1 == n;
      assert (r + [e])[i] == r[i];
    }
  }

  /** A name met before position `k` was first met before it. */
  lemma FirstBefore(names: seq<string>, n: string, k: nat)
    requires k <= |names| && n in names[..k]
    ensures FirstAt(names, n) < k
  {
    var j :| 0 <= j < k && names[..k][j] == n;
    assert forall f :: j < f <= |names| ==> names[..f][j] == n;
  }

  /** Appending the name first met at `k` keeps every name in the listing. */
  lemma InNamesExtend(r: seq<(u32, string)>, names: seq<string>, k: nat, e: (u32, string))
    requires k < |names| && e.1 == names[k]
    requires forall i :: 0 <= i < |r| ==> r[i].1 in names
    ensures forall i :: 0 <= i < |r + [e]| ==> (r + [e])[i].1 in names
  {
    var r' := r + [e];
    forall i | 0 <= i < |r'| ensures r'[i].1 in names {
      if i < |r| { assert r'[i] == r[i]; }
    }
  }

  /** Appending the name first met at `k` after names first met earlier keeps
      the first occurrences increasing. */
  lemma OrderExtend(r: seq<(u32, string)>, names: seq<string>, k: nat, e: (u32, string))
    requires k < |names| && e.1 == names[k] && FirstAt(names, names[k]) == k
    requires InFirstOrder(r, names)
    requires forall i :: 0 <= i < |r| ==> FirstAt(names, r[i].1) < k
    ensures forall i, j :: 0 <= i < j < |r + [e]| ==> FirstAt(names, (r + [e])[i].1) < FirstAt(names, (r + [e])[j].1)
  {
    var r' := r + [e];
    forall i, j | 0 <= i < j < |r'| ensures FirstAt(names, r'[i].1) < FirstAt(names, r'[j].1) {
      assert r'[i] == r[i];
      if j < |r| { assert r'[j] == r[j]; }
    }
  }

  /** Appending the name first met at `k` keeps first-occurrence order. */
  lemma FirstOrderExtend(r: seq<(u32, string)>, names: seq<string>, k: nat, e: (u32, string))
    requires k < |names| && e.1 == names[k] && FirstAt(names, names[k]) == k
    requires InFirstOrder(r, names)
    requires forall i :: 0 <= i < |r| ==> FirstAt(names, r[i].1) < k
    ensures InFirstOrder(r + [e], names)
  {
    InNamesExtend(r, names, k, e);
    OrderExtend(r, names, k, e);
  }

  /** What the loop knows once the first `k` listed names are processed: the
      result describes that prefix of the listing. */
  predicate Progress(r: seq<(u32, string)>, names: seq<string>, nameToIndex: string -> u32, k: nat) {
    && k <= |names|
    && Distinct(r)
    && (forall i :: 0 <= i < |r| ==> FirstAt(names, r[i].1) < k && Indexed(r[i], nameToIndex))
    && (forall j :: 0 <= j < k && nameToIndex(names[j]) != 0 ==> Lists(r, names[j]))
    && InFirstOrder(r, names)
  }

  /** Once every listed name is processed, the result describes the listing. */
  lemma ProgressDescribes(r: seq<(u32, string)>, names: seq<string>, nameToIndex: string -> u32)
    requires Progress(r, names, nameToIndex, |names|)
    ensures Describes(r, names, nameToIndex)
  {
  }

  /** A name met before, or one without an index, adds nothing. */
  lemma ProgressSkip(r: seq<(u32, string)>, names: seq<string>, nameToIndex: string -> u32, k: nat)
    requires k < |names| && Progress(r, names, nameToIndex, k)
    requires FirstAt(names, names[k]) < k || nameToIndex(names[k]) == 0
    ensures Progress(r, names, nameToIndex, k + 1)
  {
    if nameToIndex(names[k]) != 0 {
      var j := FirstAt(names, names[k]);
      assert names[j] == names[k];
    }
  }

  /** Appending a name no entry carries keeps the names distinct. */
  lemma DistinctExtend(r: seq<(u32, string)>, e: (u32, string))
    requires Distinct(r)
    requires forall i :: 0 <= i < |r| ==> r[i].1 != e.1
    ensures Distinct(r + [e])
  {
    var r' := r + [e];
    forall i, j | 0 <= i < j < |r'| ensures r'[i].1 != r'[j].1 {
      assert r'[i] == r[i];
      if j < |r| { assert r'[j] == r[j]; }
    }
  }

  /** Appending the indexed name first met at `k` keeps every entry indexed
      and first met before `k + 1`. */
  lemma BoundExtend(r: seq<(u32, string)>, names: seq<string>, nameToIndex: string -> u32, k: nat, e: (u32, string))
    requires forall i :: 0 <= i < |r| ==> FirstAt(names, r[i].1) < k && Indexed(r[i], nameToIndex)
    requires FirstAt(names, e.1) == k && Indexed(e, nameToIndex)
    ensures forall i :: 0 <= i < |r + [e]| ==> FirstAt(names, (r + [e])[i].1) < k + 1 && Indexed((r + [e])[i], nameToIndex)
  {
    var r' := r + [e];
    forall i | 0 <= i < |r'| ensures FirstAt(names, r'[i].1) < k + 1 && Indexed(r'[i], nameToIndex) {
      if i < |r| { assert r'[i] == r[i]; }
    }
  }

  /** Appending the name at `k` keeps every indexed name before `k` listed and
      lists the one at `k`. */
  lemma CoverExtend(r: seq<(u32, string)>, names: seq<string>, nameToIndex: string -> u32, k: nat, e: (u32, string))
    requires k < |names| && e.1 == names[k]
    requires forall j :: 0 <= j < k && nameToIndex(names[j]) != 0 ==> Lists(r, names[j])
    ensures forall j :: 0 <= j < k + 1 && nameToIndex(names[j]) != 0 ==> Lists(r + [e], names[j])
  {
    ListsExtend(r, e);
    forall j | 0 <= j < k + 1 && nameToIndex(names[j]) != 0 ensures Lists(r + [e], names[j]) {
      if j < k { assert Lists(r, names[j]); }
    }
  }

  /** A name met for the first time with a non-zero index is appended. */
  lemma ProgressAdd(r: seq<(u32, string)>, names: seq<string>, nameToIndex: string -> u32, k: nat)
    requires k < |names| && Progress(r, names, nameToIndex, k)
    requires FirstAt(names, names[k]) == k && nameToIndex(names[k]) != 0
    ensures Progress(r + [(nameToIndex(names[k]), names[k])], names, nameToIndex, k + 1)
  {
    var e := (nameToIndex(names[k]), names[k]);
    FirstOrderExtend(r, names, k, e);
    CoverExtend(r, names, nameToIndex, k, e);
    BoundExtend(r, names, nameToIndex, k, e);
    assert forall i :: 0 <= i < |r| ==> r[i].1 != e.1 by {
      forall i | 0 <= i < |r| ensures r[i].1 != e.1 {
        assert FirstAt(names, r[i].1) < k;
      }
    }
    DistinctExtend(r, e);
  }
}

=== FILE: posix_path.dfy ===
/** `os.path.join` of Python on a POSIX host, where the scripts run. */
module PosixPath {
  import PyStr

  /** Joins one more component: an absolute component restarts the path,
      and a separator is inserted only when the path does not already end in one. */
  function Join2(path: string, b: string): (r: string) {
    if PyStr.StartsWith(b, "/") then b
    else if path == [] || PyStr.EndsWith(path, "/") then path + b
    else path + "/" + b
  }

  /** An absolute component replaces the path; a relative one is appended
      after the path, with one separator between them exactly when the path is
      non-empty and does not already end in one. */
  lemma Join2Shape(path: string, b: string)
    ensures PyStr.StartsWith(b, "/") ==> Join2(path, b) == b
    ensures !PyStr.StartsWith(b, "/") ==> PyStr.StartsWith(Join2(path, b), path) && PyStr.EndsWith(Join2(path, b), b)
    ensures !PyStr.StartsWith(b, "/") && path != [] && !PyStr.EndsWith(path, "/") ==>
      |Join2(path, b)| == |path| + 1 + |b| && Join2(path, b)[|path|] == '/'
    ensures !PyStr.StartsWith(b, "/") && (path == [] || PyStr.EndsWith(path, "/")) ==> |Join2(path, b)| == |path| + |b|
  {
  }

  /** A joined path ends with a separator-free suffix exactly when its last component does. */
  lemma JoinKeepsSuffix(path: string, b: string, suffix: string)
    requires '/' !in suffix
    ensures PyStr.EndsWith(Join2(path, b), suffix) <==> PyStr.EndsWith(b, suffix)
  {
    var r := Join2(path, b);
    if !PyStr.StartsWith(b, "/") {
      if path == [] {
        assert r == b;
      } else {
        assert |r| > |b| && r[|r| - |b|..] == b && r[|r| - |b| - 1] == '/';
        if |suffix| > |b| {
          var k := |suffix| - |b| - 1;
          assert suffix[k] != '/' by { assert suffix[k] in suffix; }
          assert |suffix| <= |r| ==> r[|r| - |suffix|..][k] == r[|r| - |b| - 1];
        } else {
          assert r[|r| - |suffix|..] == b[|b| - |suffix|..];
        }
      }
    }
  }

  /** `os.path.join(a, *parts)`. */
  function Join(a: string, parts: seq<string>): (r: string)
    decreases |parts|
  {
    if |parts| == 0 then a else Join(Join2(a, parts[0]), parts[1..])
  }

  /** A relative component that contains no separator. */
  predicate IsName(s: string) {
    |s| > 0 && '/' !in s
  }

  /** `a/n1/.../nk`. */
  function Slashed(a: string, names: seq<string>): (r: string)
    decreases |names|
  {
    if |names| == 0 then a else Slashed(a + "/" + names[0], names[1..])
  }

  /** Joining plain names onto a directory that does not end in a separator
      puts exactly one separator before each name. */
  lemma {:induction false} JoinNames(a: string, names: seq<string>)
    requires a != [] && !PyStr.EndsWith(a, "/")
    requires forall k :: 0 <= k < |names| ==> IsName(names[k])
    ensures Join(a, names) == Slashed(a, names)
    decreases |names|
  {
    if |names| > 0 {
      var n := names[0];
      assert !PyStr.StartsWith(n, "/") by { assert n[0] != '/'; }
      var a' := a + "/" + n;
      assert Join2(a, n) == a';
      assert !PyStr.EndsWith(a', "/") by { assert a'[|a'| - 1] == n[|n| - 1]; assert n[|n| - 1] in n; }
      JoinNames(a', names[1..]);
    }
  }

  /** Joining introduces no character other than the separator. */
  lemma {:induction false} JoinAvoids(a: string, parts: seq<string>, c: char)
    requires c != '/' && c !in a
    requires forall k :: 0 <= k < |parts| ==> c !in parts[k]
    ensures c !in Join(a, parts)
    decreases |parts|
  {
    if |parts| > 0 {
      var j := Join2(a, parts[0]);
      assert c !in j by {
        if !PyStr.StartsWith(parts[0], "/") && a != [] && !PyStr.EndsWith(a, "/") {
          assert j == a + "/" + parts[0];
        }
      }
      JoinAvoids(j, parts[1..], c);
    }
  }

  lemma SlashedThree(a: string, x: string, y: string, z: string)
    ensures Slashed(a, [x, y, z]) == a + "/" + x + "/" + y + "/" + z
  {
    assert [x, y, z][1..] == [y, z];
    assert [y, z][1..] == [z];
    assert [z][1..] == [];
    calc {
      Slashed(a, [x, y, z]);
      Slashed(a + "/" + x, [y, z]);
      Slashed(a + "/" + x + "/" + y, [z]);
      Slashed(a + "/" + x + "/" + y + "/" + z, []);
    }
  }
}

=== FILE: pystr.dfy ===
/** The Python `str` methods the build scripts rely on, over Unicode scalar values. */
module PyStr {
  import Decimal
  import opened Wrappers

  /** `str.isspace()` for one character: the Unicode white-space characters Python strips. */
  predicate IsSpace(c: char) {
    || '\t' <= c <= '\r'
    || '\U{1C}' <= c <= '\U{1F}'
    || c == ' ' || c == '\U{85}' || c == '\U{A0}' || c == '\U{1680}'
    || '\U{2000}' <= c <= '\U{200A}'
    || c == '\U{2028}' || c == '\U{2029}' || c == '\U{202F}' || c == '\U{205F}' || c == '\U{3000}'
  }

  predicate StartsWith(s: string, prefix: string) {
    prefix <= s
  }

  predicate EndsWith(s: string, suffix: string) {
    |suffix| <= |s| && s[|s| - |suffix|..] == suffix
  }

  /** `sub` occurs in `s` at position `i`. */
  predicate OccursAt(s: string, sub: string, i: nat) {
    i + |sub| <= |s| && s[i..i + |sub|] == sub
  }

  /** Python's `sub in s`. */
  predicate Contains(s: string, sub: string) {
    exists i: nat :: i <= |s| && OccursAt(s, sub, i)
  }

  /** Whatever sits between two pieces occurs in the whole. */
  lemma ContainsInfix(a: string, b: string, c: string)
    ensures Contains(a + b + c, b)
  {
    assert OccursAt(a + b + c, b, |a|) by { assert (a + b + c)[|a|..|a| + |b|] == b; }
  }

  /** The first position of `c` in `s`, if any. */
  function IndexOf(s: string, c: char): (r: Option<nat>)
    ensures r.None? <==> c !in s
    ensures r.Some? ==> r.value < |s| && s[r.value] == c && c !in s[..r.value]
    decreases |s|
  {
    if |s| == 0 then None
    else if s[0] == c then Some(0)
    else match IndexOf(s[1..], c)
      case None => None
      case Some(i) =>
        assert s[..i + 1] == [s[0]] + s[1..][..i];
        Some(i + 1)
  }

  /** The first `c` of `a + [c] + b` is the one after `a` when `a` has none. */
  lemma {:induction false} IndexOfFirst(a: string, c: char, b: string)
    requires c !in a
    ensures IndexOf(a + [c] + b, c) == Some(|a|)
    decreases |a|
  {
    if |a| > 0 {
      assert a[0] in a;
      assert (a + [c] + b)[1..] == a[1..] + [c] + b;
      assert c !in a[1..] by { forall j | 0 <= j < |a| - 1 ensures a[1..][j] != c { assert a[1..][j] == a[j + 1]; } }
      IndexOfFirst(a[1..], c, b);
    }
  }

  /** `str.find(sub)`: the least index where `sub` occurs, or -1. */
  function Find(s: string, sub: string): (r: int)
    ensures -1 <= r <= |s|
    ensures r == -1 <==> !Contains(s, sub)
    ensures r >= 0 ==> OccursAt(s, sub, r) && forall j: nat :: j < r ==> !OccursAt(s, sub, j)
  {
    FindFrom(s, sub, 0)
  }

  function FindFrom(s: string, sub: string, from: nat): (r: int)
    requires from <= |s|
    requires forall j: nat :: j < from ==> !OccursAt(s, sub, j)
    ensures -1 <= r <= |s|
    ensures r == -1 <==> !Contains(s, sub)
    ensures r >= 0 ==> from <= r && OccursAt(s, sub, r) && forall j: nat :: j < r ==> !OccursAt(s, sub, j)
    decreases |s| - from
  {
    if OccursAt(s, sub, from) then from
    else if from == |s| then
      assert forall j: nat :: j > |s| ==> !OccursAt(s, sub, j);
      -1
    else FindFrom(s, sub, from + 1)
  }

  /** `str.lstrip()`. */
  function LStrip(s: string): (r: string)
    ensures |r| <= |s| && r == s[|s| - |r|..]
    ensures forall i :: 0 <= i < |s| - |r| ==> IsSpace(s[i])
    ensures |r| > 0 ==> !IsSpace(r[0])
  {
    if |s| > 0 && IsSpace(s[0]) then LStrip(s[1..]) else s
  }

  /** `str.rstrip()`. */
  function RStrip(s: string): (r: string)
    ensures |r| <= |s| && r == s[..|r|]
    ensures forall i :: |r| <= i < |s| ==> IsSpace(s[i])
    ensures |r| > 0 ==> !IsSpace(r[|r| - 1])
  {
    if |s| > 0 && IsSpace(s[|s| - 1]) then RStrip(s[..|s| - 1]) else s
  }

  /** `str.strip()`: the text between the leading and the trailing white space. */
  function Strip(s: string): (r: string)
    ensures |r| <= |s|
    ensures |r| > 0 ==> !IsSpace(r[0]) && !IsSpace(r[|r| - 1])
    ensures |r| == 0 <==> forall i :: 0 <= i < |s| ==> IsSpace(s[i])
    ensures |r| > 0 ==> r[0] == s[|s| - |LStrip(s)|]
  {
    var l := LStrip(s);
    var r := RStrip(l);
    assert |r| == 0 ==> |l| == 0;
    r
  }

  /** `str.lower()` on one character, for the ASCII letters. */
  function LowerChar(c: char): (d: char)
    ensures 'A' <= c <= 'Z' ==> d as int == c as int + 32
    ensures !('A' <= c <= 'Z') ==> d == c
  {
    if 'A' <= c <= 'Z' then (c as int + 32) as char else c
  }

  /** `str.lower()`, for the ASCII letters. */
  function Lower(s: string): (r: string)
    ensures |r| == |s|
    ensures forall i :: 0 <= i < |s| ==> r[i] == LowerChar(s[i])
  {
    seq(|s|, i requires 0 <= i < |s| => LowerChar(s[i]))
  }

  /** A line boundary for `str.splitlines()`. */
  predicate IsLineBreak(c: char) {
    || c == '\n' || c == '\r' || c == '\U{0B}' || c == '\U{0C}'
    || '\U{1C}' <= c <= '\U{1E}' || c == '\U{85}' || c == '\U{2028}' || c == '\U{2029}'
  }

  /** Index of the first line boundary of `s`, or `|s|` when there is none. */
  function LineEnd(s: string): (i: nat)
    ensures i <= |s|
    ensures i < |s| ==> IsLineBreak(s[i])
    ensures forall j :: 0 <= j < i ==> !IsLineBreak(s[j])
  {
    if |s| == 0 || IsLineBreak(s[0]) then 0 else 1 + LineEnd(s[1..])
  }

  /** `str.splitlines()`: lines without their boundaries; `"\r\n"` is one boundary
      and a final boundary does not open an empty last line. */
  function SplitLines(s: string): (lines: seq<string>)
    ensures |s| == 0 <==> |lines| == 0
    ensures forall k :: 0 <= k < |lines| ==> forall j :: 0 <= j < |lines[k]| ==> !IsLineBreak(lines[k][j])
    decreases |s|
  {
    if |s| == 0 then []
    else
      var i := LineEnd(s);
      if i == |s| then [s]
      else
        var width := if s[i] == '\r' && i + 1 < |s| && s[i + 1] == '\n' then 2 else 1;
        [s[..i]] + SplitLines(s[i + width..])
  }

  /** Length of the leading run of non-space characters. */
  function WordEnd(s: string): (i: nat)
    ensures i <= |s|
    ensures i < |s| ==> IsSpace(s[i])
    ensures forall j :: 0 <= j < i ==> !IsSpace(s[j])
  {
    if |s| == 0 || IsSpace(s[0]) then 0 else 1 + WordEnd(s[1..])
  }

  /** A non-empty run of non-space characters. */
  predicate IsWord(w: string) {
    |w| > 0 && forall j :: 0 <= j < |w| ==> !IsSpace(w[j])
  }

  /** `str.split()` with no separator: the maximal runs of non-space characters. */
  function SplitWhitespace(s: string): (r: seq<string>)
    decreases |s|
  {
    var t := LStrip(s);
    if |t| == 0 then []
    else
      var k := WordEnd(t);
      [t[..k]] + SplitWhitespace(t[k..])
  }

  /** Every piece `str.split()` returns is a word. */
  lemma {:induction false} SplitWhitespaceWords(s: string)
    ensures forall k :: 0 <= k < |SplitWhitespace(s)| ==> IsWord(SplitWhitespace(s)[k])
    decreases |s|
  {
    var t := LStrip(s);
    if |t| > 0 {
      var k := WordEnd(t);
      var rest := SplitWhitespace(t[k..]);
      SplitWhitespaceWords(t[k..]);
      var words := SplitWhitespace(s);
      assert words == [t[..k]] + rest;
      forall j | 0 <= j < |words| ensures IsWord(words[j]) {
        if j > 0 { assert words[j] == rest[j - 1]; }
      }
    }
  }

  /** `str.split()` finds no word exactly in blank text. */
  lemma SplitWhitespaceEmpty(s: string)
    ensures |SplitWhitespace(s)| == 0 <==> forall i :: 0 <= i < |s| ==> IsSpace(s[i])
  {
    var t := LStrip(s);
    if |t| > 0 {
      assert !IsSpace(s[|s| - |t|]);
    }
  }

  /** `sep.join(parts)` for a one-character separator. */
  function JoinWith(sep: char, parts: seq<string>): (r: string)
    decreases |parts|
  {
    if |parts| == 0 then ""
    else if |parts| == 1 then parts[0]
    else parts[0] + [sep] + JoinWith(sep, parts[1..])
  }

  /** `s.split(sep)` for a one-character separator: the pieces between separators,
      empty pieces included; there is always at least one piece. */
  function SplitOn(s: string, sep: char): (parts: seq<string>)
    ensures |parts| >= 1
    decreases |s|
  {
    if |s| == 0 then [""]
    else
      var rest := SplitOn(s[1..], sep);
      if s[0] == sep then [""] + rest else [[s[0]] + rest[0]] + rest[1..]
  }

  /** No piece of a split holds the separator. */
  lemma {:induction false} SplitOnPieces(s: string, sep: char)
    ensures forall k :: 0 <= k < |SplitOn(s, sep)| ==> sep !in SplitOn(s, sep)[k]
    decreases |s|
  {
    if |s| > 0 {
      SplitOnPieces(s[1..], sep);
    }
  }

  /** Text without the separator is one piece. */
  lemma {:induction false} SplitOnNoSep(s: string, sep: char)
    requires sep !in s
    ensures SplitOn(s, sep) == [s]
    decreases |s|
  {
    if |s| > 0 {
      assert sep !in s[1..];
      SplitOnNoSep(s[1..], sep);
      assert [s[0]] + s[1..] == s;
    }
  }

  /** Splitting distributes over a separator. */
  lemma {:induction false} SplitOnConcat(a: string, b: string, sep: char)
    ensures SplitOn(a + [sep] + b, sep) == SplitOn(a, sep) + SplitOn(b, sep)
    decreases |a|
  {
    var s := a + [sep] + b;
    if |a| == 0 {
      assert s[1..] == b;
    } else {
      assert s[1..] == a[1..] + [sep] + b;
      SplitOnConcat(a[1..], b, sep);
    }
  }

  /** Splitting undoes joining when no piece contains the separator. */
  lemma {:induction false} SplitOnJoinWith(parts: seq<string>, sep: char)
    requires |parts| >= 1
    requires forall k :: 0 <= k < |parts| ==> sep !in parts[k]
    ensures SplitOn(JoinWith(sep, parts), sep) == parts
    decreases |parts|
  {
    SplitOnNoSep(parts[0], sep);
    if |parts| > 1 {
      SplitOnConcat(parts[0], JoinWith(sep, parts[1..]), sep);
      SplitOnJoinWith(parts[1..], sep);
      assert parts == [parts[0]] + parts[1..];
    }
  }

  /** Text with no white space at either end. */
  predicate IsTrimmed(s: string) {
    |s| > 0 && !IsSpace(s[0]) && !IsSpace(s[|s| - 1])
  }

  /** Trailing white space is all `rstrip` removes from trimmed text. */
  lemma {:induction false} RStripTrailing(s: string, post: string)
    requires |s| > 0 && !IsSpace(s[|s| - 1])
    requires forall i :: 0 <= i < |post| ==> IsSpace(post[i])
    ensures RStrip(s + post) == s
    decreases |post|
  {
    if |post| > 0 {
      var t := s + post;
      assert t[..|t| - 1] == s + post[..|post| - 1];
      assert IsSpace(t[|t| - 1]) by { assert t[|t| - 1] == post[|post| - 1]; }
      RStripTrailing(s, post[..|post| - 1]);
    }
  }

  /** Stripping trimmed text followed by white space gives the text back. */
  lemma StripTrailing(s: string, post: string)
    requires IsTrimmed(s)
    requires forall i :: 0 <= i < |post| ==> IsSpace(post[i])
    ensures Strip(s + post) == s
  {
    assert (s + post)[0] == s[0];
    assert LStrip(s + post) == s + post;
    RStripTrailing(s, post);
  }

  /** The first line boundary of `l + [c] + rest` is `c` when `l` has none. */
  lemma {:induction false} LineEndAt(l: string, c: char, rest: string)
    requires IsLineBreak(c)
    requires forall j :: 0 <= j < |l| ==> !IsLineBreak(l[j])
    ensures LineEnd(l + [c] + rest) == |l|
    decreases |l|
  {
    if |l| > 0 {
      assert !IsLineBreak(l[0]);
      assert (l + [c] + rest)[1..] == l[1..] + [c] + rest;
      LineEndAt(l[1..], c, rest);
    }
  }

  /** A line ended by `"\n"` is the first line. */
  lemma SplitLinesCons(l: string, rest: string)
    requires forall j :: 0 <= j < |l| ==> !IsLineBreak(l[j])
    ensures SplitLines(l + "\n" + rest) == [l] + SplitLines(rest)
  {
    var s := l + "\n" + rest;
    LineEndAt(l, '\n', rest);
    assert s[..|l|] == l && s[|l| + 1..] == rest;
  }

  /** The first word of `w + [c] + rest` ends at the white-space character `c`. */
  lemma {:induction false} WordEndAt(w: string, c: char, rest: string)
    requires IsSpace(c)
    requires forall j :: 0 <= j < |w| ==> !IsSpace(w[j])
    ensures WordEnd(w + [c] + rest) == |w|
    decreases |w|
  {
    if |w| > 0 {
      assert !IsSpace(w[0]);
      assert (w + [c] + rest)[1..] == w[1..] + [c] + rest;
      WordEndAt(w[1..], c, rest);
    }
  }

  /** Leading white space does not open a word. */
  lemma SplitWhitespaceSkip(c: char, rest: string)
    requires IsSpace(c)
    ensures SplitWhitespace([c] + rest) == SplitWhitespace(rest)
  {
    assert ([c] + rest)[1..] == rest;
    assert LStrip([c] + rest) == LStrip(rest);
  }

  /** A word followed by white space is the first word. */
  lemma SplitWhitespaceCons(w: string, c: char, rest: string)
    requires IsWord(w) && IsSpace(c)
    ensures SplitWhitespace(w + [c] + rest) == [w] + SplitWhitespace(rest)
  {
    var s := w + [c] + rest;
    assert s[0] == w[0];
    assert LStrip(s) == s;
    WordEndAt(w, c, rest);
    assert s[..|w|] == w;
    assert s[|w|..] == [c] + rest;
    SplitWhitespaceSkip(c, rest);
  }
}

=== FILE: universal_serde.dfy ===
/** `src/universal_serde.rs`: messages are read in whichever of three formats
    parses — JSON, CBOR or BARE, tried in that order — and written in a
    chosen one. The three codecs themselves (serde_json, serde_cbor,
    serde_bare) are parameters of the model. */
module UniversalSerde {
  import opened Wrappers
  import opened Machine
  import Utf8

  datatype Format = JSON | CBOR | BARE

  /** Position of a format in the order `deserialize` tries them. */
  function Rank(f: Format): (r: nat) {
    match f
    case JSON => 0
    case CBOR => 1
    case BARE => 2
  }

  /** The codec libraries, seen from outside. Each parse error is given as its
      `Debug` rendering; `utf8Error` renders the `Utf8Error` of bytes that are
      not well-formed. */
  datatype Codecs<!T> = Codecs(
    fromStr: string -> Result<T, string>,
    fromCbor: seq<u8> -> Result<T, string>,
    fromBare: seq<u8> -> Result<T, string>,
    utf8Error: seq<u8> -> string,
    toJson: T -> Result<string, string>,
    toCbor: T -> Result<seq<u8>, string>,
    toBare: T -> Result<seq<u8>, string>)

  /** One format's parser: `deserialize_json`, `deserialize_cbor` and `deserialize_bare`.
      JSON first requires the bytes to be well-formed UTF-8. */
  function ParseAs<T>(f: Format, bs: seq<u8>, c: Codecs<T>): (r: Result<T, string>)
    ensures f == JSON && Utf8.Decode(bs).None? ==> r == Failure(c.utf8Error(bs))
    ensures f == JSON && Utf8.Decode(bs).Some? ==> r == c.fromStr(Utf8.Decode(bs).value)
  {
    match f
    case JSON =>
      (match Utf8.Decode(bs)
       case None => Failure(c.utf8Error(bs))
       case Some(s) => c.fromStr(s))
    case CBOR => c.fromCbor(bs)
    case BARE => c.fromBare(bs)
  }

  const FAILURE_HEAD := "Data could not be parsed; attempted formats JSON, CBOR, BARE.\nParse errors:\n"

  /** Rust's `char::escape_debug` for the characters it escapes with a
      backslash; every other character is kept. */
  function EscapeChar(ch: char): (e: string)
    ensures ch != '\n' ==> '\n' !in e
    ensures ch != '\r' ==> '\r' !in e
    ensures |e| >= 1
  {
    if ch == '\0' then "\\0"
    else if ch == '\t' then "\\t"
    else if ch == '\r' then "\\r"
    else if ch == '\n' then "\\n"
    else if ch == '\\' then "\\\\"
    else if ch == '"' then "\\\""
    else [ch]
  }

  function EscapeAll(s: string): (e: string)
    ensures |e| >= |s|
    decreases |s|
  {
    if |s| == 0 then "" else EscapeChar(s[0]) + EscapeAll(s[1..])
  }

  /** The `{:?}` rendering of a string: quoted and escaped, on one line, and
      nothing is lost: unescaping the text between the quotes gives `s` back. */
  function DebugStr(s: string): (d: string)
    ensures |d| >= |s| + 2 && d[0] == '"' && d[|d| - 1] == '"'
    ensures '\n' !in d && '\r' !in d
    ensures Unescape(d[1..|d| - 1]) == Some(s)
  {
    EscapeAllOneLine(s);
    UnescapeEscapeAll(s);
    var d := "\"" + EscapeAll(s) + "\"";
    assert d[1..|d| - 1] == EscapeAll(s);
    d
  }

  /** The character a backslash escape stands for, when it is one `EscapeChar` writes. */
  function UnescapeChar(x: char): (r: Option<char>) {
    if x == '0' then Some('\0')
    else if x == 't' then Some('\t')
    else if x == 'r' then Some('\r')
    else if x == 'n' then Some('\n')
    else if x == '\\' then Some('\\')
    else if x == '"' then Some('"')
    else None
  }

  /** Reads escaped text back: a backslash and the character after it stand for
      one character, every other character for itself. */
  function Unescape(e: string): (r: Option<string>)
    decreases |e|
  {
    if |e| == 0 then Some("")
    else if e[0] == '\\' then
      if |e| < 2 then None
      else match (UnescapeChar(e[1]), Unescape(e[2..]))
        case (Some(c), Some(rest)) => Some([c] + rest)
        case _ => None
    else match Unescape(e[1..])
      case Some(rest) => Some([e[0]] + rest)
      case None => None
  }

  /** Escaping is undone by `Unescape`. */
  lemma {:induction false} UnescapeEscapeAll(s: string)
    ensures Unescape(EscapeAll(s)) == Some(s)
    decreases |s|
  {
    if |s| > 0 {
      UnescapeEscapeAll(s[1..]);
      UnescapeStep(s[0], EscapeAll(s[1..]), s[1..]);
      assert [s[0]] + s[1..] == s;
    }
  }

  /** One escaped character in front of escaped text reads back as that character in front. */
  lemma UnescapeStep(ch: char, t: string, rest: string)
    requires Unescape(t) == Some(rest)
    ensures Unescape(EscapeChar(ch) + t) == Some([ch] + rest)
  {
    var e := EscapeChar(ch) + t;
    if ch in "\0\t\r\n\\\"" {
      assert |EscapeChar(ch)| == 2 && e[0] == '\\' && UnescapeChar(e[1]) == Some(ch);
      assert e[2..] == t;
    } else {
      assert e[0] == ch && e[1..] == t;
    }
  }

  /** Two strings with the same `{:?}` rendering are equal. */
  lemma DebugStrInjective(a: string, b: string)
    requires DebugStr(a) == DebugStr(b)
    ensures a == b
  {
  }

  /** Escaping leaves no line break: however many lines the errors had, the
      rendered list is one line. */
  lemma {:induction false} EscapeAllOneLine(s: string)
    ensures '\n' !in EscapeAll(s) && '\r' !in EscapeAll(s)
    decreases |s|
  {
    if |s| > 0 {
      EscapeAllOneLine(s[1..]);
      if s[0] == '\n' {
        assert EscapeChar(s[0]) == "\\n";
      } else if s[0] == '\r' {
        assert EscapeChar(s[0]) == "\\r";
      }
    }
  }

  /** The `Debug` text of each failing parser, each followed by a
      line break, in the order tried. */
  function CollectErrors<T>(bs: seq<u8>, c: Codecs<T>, formats: seq<Format>): (r: string)
    decreases |formats|
  {
    if |formats| == 0 then ""
    else
      var here := match ParseAs(formats[0], bs, c)
        case Success(_) => ""
        case Failure(e) => e + "\n";
      here + CollectErrors(bs, c, formats[1..])
  }

  const ORDER := [JSON, CBOR, BARE]

  /** When every parser fails, the collected text lists the three errors in order. */
  lemma CollectAllFailed<T>(bs: seq<u8>, c: Codecs<T>)
    requires forall g: Format :: ParseAs(g, bs, c).Failure?
    ensures CollectErrors(bs, c, ORDER) ==
      ParseAs(JSON, bs, c).error + "\n" + ParseAs(CBOR, bs, c).error + "\n" + ParseAs(BARE, bs, c).error + "\n"
  {
    var e1, e2, e3 := ParseAs(JSON, bs, c).error, ParseAs(CBOR, bs, c).error, ParseAs(BARE, bs, c).error;
    assert ORDER[1..] == [CBOR, BARE] && [CBOR, BARE][1..] == [BARE] && [BARE][1..] == [];
    assert CollectErrors(bs, c, [BARE]) == e3 + "\n";
    assert CollectErrors(bs, c, [CBOR, BARE]) == e2 + "\n" + (e3 + "\n");
    assert CollectErrors(bs, c, ORDER) == e1 + "\n" + (e2 + "\n" + (e3 + "\n"));
  }

  /** The first format whose parser accepts the bytes wins and the
      value comes back tagged with it; when none does, the error lists every
      parser's complaint. */
  function Deserialize<T>(bs: seq<u8>, c: Codecs<T>): (r: Result<(T, Format), string>)
    ensures r.Success? ==> ParseAs(r.value.1, bs, c) == Success(r.value.0)
    ensures r.Success? ==> forall g: Format :: Rank(g) < Rank(r.value.1) ==> ParseAs(g, bs, c).Failure?
    ensures r.Failure? <==> forall g: Format :: ParseAs(g, bs, c).Failure?
    ensures r.Failure? ==> r.error == FAILURE_HEAD + DebugStr(
      ParseAs(JSON, bs, c).error + "\n" + ParseAs(CBOR, bs, c).error + "\n" + ParseAs(BARE, bs, c).error + "\n")
  {
    match (ParseAs(JSON, bs, c), ParseAs(CBOR, bs, c), ParseAs(BARE, bs, c))
    case (Success(t), _, _) => Success((t, JSON))
    case (_, Success(t), _) => Success((t, CBOR))
    case (_, _, Success(t)) => Success((t, BARE))
    case _ =>
      var errs := CollectErrors(bs, c, ORDER);
      CollectAllFailed(bs, c);
      Failure(FAILURE_HEAD + DebugStr(errs))
  }

  /** The parse errors, however many lines each had, are rendered on the one
      line after the header. */
  lemma FailureMessageOneLine<T>(bs: seq<u8>, c: Codecs<T>)
    requires Deserialize(bs, c).Failure?
    ensures var m := Deserialize(bs, c).error;
      |m| > |FAILURE_HEAD| && forall i :: |FAILURE_HEAD| <= i < |m| ==> m[i] != '\n' && m[i] != '\r'
  {
    var m := Deserialize(bs, c).error;
    var errs := ParseAs(JSON, bs, c).error + "\n" + ParseAs(CBOR, bs, c).error + "\n" + ParseAs(BARE, bs, c).error + "\n";
    EscapeAllOneLine(errs);
    assert m[|FAILURE_HEAD|..] == "\"" + EscapeAll(errs) + "\"";
    forall i | |FAILURE_HEAD| <= i < |m| ensures m[i] != '\n' && m[i] != '\r' {
      assert m[i] == m[|FAILURE_HEAD|..][i - |FAILURE_HEAD|];
      if i - |FAILURE_HEAD| - 1 >= 0 && i - |FAILURE_HEAD| - 1 < |EscapeAll(errs)| {
        assert m[i] == EscapeAll(errs)[i - |FAILURE_HEAD| - 1];
      }
    }
  }

  /** The expected format's parser is tried alone first; when it
      rejects the bytes, the general search runs from the start. */
  function DeserializeExpected<T>(bs: seq<u8>, expected: Format, c: Codecs<T>): (r: Result<(T, Format), string>)
    ensures ParseAs(expected, bs, c).Success? ==> r == Success((ParseAs(expected, bs, c).value, expected))
    ensures ParseAs(expected, bs, c).Failure? ==> r == Deserialize(bs, c)
  {
    match ParseAs(expected, bs, c)
    case Success(t) => Success((t, expected))
    case Failure(_) => Deserialize(bs, c)
  }

  /** Whatever `deserialize_expected` returns was produced by the parser of
      the format it is tagged with, and it fails exactly when every parser does. */
  lemma ExpectedTagIsParser<T>(bs: seq<u8>, expected: Format, c: Codecs<T>)
    ensures var r := DeserializeExpected(bs, expected, c);
      && (r.Success? ==> ParseAs(r.value.1, bs, c) == Success(r.value.0))
      && (r.Failure? <==> Deserialize(bs, c).Failure?)
  {
  }

  /** When only one parser accepts the bytes, it makes no difference which
      format was expected. */
  lemma ExpectedAgreesWhenUnambiguous<T>(bs: seq<u8>, expected: Format, c: Codecs<T>, f: Format)
    requires ParseAs(f, bs, c).Success?
    requires forall g: Format :: g != f ==> ParseAs(g, bs, c).Failure?
    ensures DeserializeExpected(bs, expected, c) == Deserialize(bs, c) == Success((ParseAs(f, bs, c).value, f))
  {
  }

  /** Bytes that are not UTF-8 are never read as JSON. */
  lemma NotUtf8NeverJson<T>(bs: seq<u8>, c: Codecs<T>)
    requires Utf8.Decode(bs).None?
    ensures Deserialize(bs, c).Success? ==> Deserialize(bs, c).value.1 != JSON
  {
  }

  /** Encode in the chosen format; JSON text goes out as its UTF-8 bytes. */
  function Serialize<T>(t: T, f: Format, c: Codecs<T>): (r: Result<seq<u8>, string>)
    ensures f == JSON ==> (r.Success? <==> c.toJson(t).Success?)
    ensures f == JSON && r.Success? ==> Utf8.Decode(r.value) == Some(c.toJson(t).value)
    ensures f == CBOR ==> r == c.toCbor(t)
    ensures f == BARE ==> r == c.toBare(t)
  {
    match f
    case JSON =>
      (match c.toJson(t)
       case Success(s) =>
         Utf8.DecodeEncode(s);
         Success(Utf8.Encode(s))
       case Failure(e) => Failure(e))
    case CBOR => c.toCbor(t)
    case BARE => c.toBare(t)
  }

  /** Each codec reads back what it wrote for `t`. */
  ghost predicate CodecsRoundTrip<T>(c: Codecs<T>, t: T) {
    && (c.toJson(t).Success? ==> c.fromStr(c.toJson(t).value) == Success(t))
    && (c.toCbor(t).Success? ==> c.fromCbor(c.toCbor(t).value) == Success(t))
    && (c.toBare(t).Success? ==> c.fromBare(c.toBare(t).value) == Success(t))
  }

  /** A message written in a format and read back expecting that format gives
      the value back, tagged with the same format — the UTF-8 step included. */
  lemma SerializeThenExpected<T>(t: T, f: Format, c: Codecs<T>)
    requires CodecsRoundTrip(c, t)
    requires Serialize(t, f, c).Success?
    ensures DeserializeExpected(Serialize(t, f, c).value, f, c) == Success((t, f))
  {
  }
}

=== FILE: utf8.dfy ===
/** UTF-8 as Rust's `str::from_utf8`, `String::into_bytes` and `str::len` use it:
    the well-formed byte sequences of section 4 of RFC 3629. */
module Utf8 {
  import opened Wrappers
  import opened Machine

  predicate IsContinuation(b: u8) {
    0x80 <= b <= 0xBF
  }

  /** Number of bytes the encoding of `c` takes. */
  function CharWidth(c: char): (w: nat)
    ensures 1 <= w <= 4
  {
    var n := c as int;
    if n < 0x80 then 1 else if n < 0x800 then 2 else if n < 0x10000 then 3 else 4
  }

  function EncodeChar(c: char): (bs: seq<u8>)
    ensures |bs| == CharWidth(c)
  {
    var n := c as int;
    if n < 0x80 then [n as u8]
    else if n < 0x800 then [(0xC0 + n / 64) as u8, (0x80 + n % 64) as u8]
    else if n < 0x10000 then
      [(0xE0 + n / 4096) as u8, (0x80 + (n / 64) % 64) as u8, (0x80 + n % 64) as u8]
    else
      [(0xF0 + n / 262144) as u8, (0x80 + (n / 4096) % 64) as u8, (0x80 + (n / 64) % 64) as u8, (0x80 + n % 64) as u8]
  }

  /** `String::into_bytes`. */
  function Encode(s: string): (bs: seq<u8>)
    ensures |bs| == ByteLen(s)
  {
    if |s| == 0 then [] else EncodeChar(s[0]) + Encode(s[1..])
  }

  /** Rust's `str::len`: the length in bytes of the UTF-8 encoding. */
  function ByteLen(s: string): (n: nat)
    ensures |s| <= n <= 4 * |s|
  {
    if |s| == 0 then 0 else CharWidth(s[0]) + ByteLen(s[1..])
  }

  /** The scalar value a well-formed sequence encodes. */
  function ScalarChar(n: int): (r: char)
    requires 0 <= n < 0xD800 || 0xE000 <= n < 0x11_0000
  {
    n as char
  }

  /** The first encoded scalar of `bs` and how many bytes it takes,
      or None when `bs` does not start with a well-formed sequence. */
  function DecodeFirst(bs: seq<u8>): (r: Option<(char, nat)>)
    requires |bs| > 0
    ensures r.Some? ==> 1 <= r.value.1 <= |bs| && r.value.1 <= 4
  {
    var b0 := bs[0] as int;
    if b0 < 0x80 then Some((ScalarChar(b0), 1))
    else if 0xC2 <= b0 <= 0xDF then
      if |bs| >= 2 && IsContinuation(bs[1]) then
        Some((ScalarChar((b0 - 0xC0) * 64 + (bs[1] as int - 0x80)), 2))
      else None
    else if 0xE0 <= b0 <= 0xEF then
      var lo := if b0 == 0xE0 then 0xA0 else 0x80;
      var hi := if b0 == 0xED then 0x9F else 0xBF;
      if |bs| >= 3 && lo <= bs[1] as int <= hi && IsContinuation(bs[2]) then
        Some((ScalarChar((b0 - 0xE0) * 4096 + (bs[1] as int - 0x80) * 64 + (bs[2] as int - 0x80)), 3))
      else None
    else if 0xF0 <= b0 <= 0xF4 then
      var lo := if b0 == 0xF0 then 0x90 else 0x80;
      var hi := if b0 == 0xF4 then 0x8F else 0xBF;
      if |bs| >= 4 && lo <= bs[1] as int <= hi && IsContinuation(bs[2]) && IsContinuation(bs[3]) then
        Some((ScalarChar((b0 - 0xF0) * 262144 + (bs[1] as int - 0x80) * 4096
                         + (bs[2] as int - 0x80) * 64 + (bs[3] as int - 0x80)), 4))
      else None
    else None
  }

  /** `str::from_utf8`: the text, or None when the bytes are not well-formed UTF-8. */
  function Decode(bs: seq<u8>): (r: Option<string>)
    decreases |bs|
  {
    if |bs| == 0 then Some([])
    else match DecodeFirst(bs)
      case None => None
      case Some((c, w)) =>
        match Decode(bs[w..])
        case None => None
        case Some(rest) => Some([c] + rest)
  }

  /** The encoding of one character is read back as that character. */
  lemma DecodeFirstEncodeChar(c: char, rest: seq<u8>)
    ensures DecodeFirst(EncodeChar(c) + rest) == Some((c, CharWidth(c)))
  {
    var n := c as int;
    if n < 0x80 {
    } else if n < 0x800 {
      DecodeTwo(c, rest);
    } else if n < 0x10000 {
      DecodeThree(c, rest);
    } else {
      DecodeFour(c, rest);
    }
  }

  lemma DecodeTwo(c: char, rest: seq<u8>)
    requires 0x80 <= c as int < 0x800
    ensures DecodeFirst(EncodeChar(c) + rest) == Some((c, 2))
  {
    var n := c as int;
    assert n == (n / 64) * 64 + n % 64;
  }

  lemma DecodeThree(c: char, rest: seq<u8>)
    requires 0x800 <= c as int < 0x10000
    ensures DecodeFirst(EncodeChar(c) + rest) == Some((c, 3))
  {
    var n := c as int;
    assert n / 64 == (n / 4096) * 64 + (n / 64) % 64;
    assert n == (n / 64) * 64 + n % 64;
  }

  lemma DecodeFour(c: char, rest: seq<u8>)
    requires 0x10000 <= c as int
    ensures DecodeFirst(EncodeChar(c) + rest) == Some((c, 4))
  {
    var n := c as int;
    assert n / 4096 == (n / 262144) * 64 + (n / 4096) % 64;
    assert n / 64 == (n / 4096) * 64 + (n / 64) % 64;
    assert n == (n / 64) * 64 + n % 64;
  }

  /** Decoding inverts encoding: every string survives `into_bytes` then `from_utf8`. */
  lemma {:induction false} DecodeEncode(s: string)
    ensures Decode(Encode(s)) == Some(s)
    decreases |s|
  {
    if |s| > 0 {
      var bs := Encode(s);
      DecodeFirstEncodeChar(s[0], Encode(s[1..]));
      assert bs[CharWidth(s[0])..] == Encode(s[1..]);
      DecodeEncode(s[1..]);
      assert [s[0]] + s[1..] == s;
    }
  }

  /** Distinct strings have distinct encodings. */
  lemma EncodeInjective(s: string, t: string)
    requires Encode(s) == Encode(t)
    ensures s == t
  {
    DecodeEncode(s);
    DecodeEncode(t);
  }
}

=== FILE: wasi_adapters.dfy ===
/** `src/executor/wasi_adapters.rs`: the stdout of a running program,
    forwarded to the client as UDP datagrams. Each write is wrapped in a
    message carrying the program's pid, encoded, and sent piece by piece from
    where the previous send stopped. The socket is a sequence of send outcomes
    and the encoder a function; neither is looked into. */
module WasiAdapters {
  import opened Wrappers
  import opened Machine

  /** A socket address; only where replies go is modelled, not its form. */
  type SocketAddr = string

  /** The bound UDP socket, as a handle. */
  type Socket = nat

  /** The text of an I/O error. */
  type IoError = string

  /** The result of one poll: ready with a value, or not yet. */
  datatype Poll<+T> = Ready(value: T) | NotReady

  /** What one `poll_send_to` reports: the number of bytes sent, that the
      socket is not ready, or an error. */
  datatype SendOutcome = Sent(n: nat) | WouldBlock | SendFailed(error: IoError)

  /** `WasiStdioSimpleForwarder`: where replies go, and the frame being sent
      with how many of its bytes have gone out. */
  datatype Forwarder = Forwarder(
    ourPid: u64,
    replyTo: Option<SocketAddr>,
    replyFrom: Option<Socket>,
    currentEncodedMsg: Option<seq<u8>>,
    currentEncodedSent: nat)

  /** A forwarder that has nothing in flight. */
  predicate Idle(f: Forwarder) {
    f.currentEncodedMsg.None? && f.currentEncodedSent == 0
  }

  /** A forwarder that forwards nothing. */
  function NewNop(): (f: Forwarder)
    ensures Idle(f) && f.replyTo.None? && f.replyFrom.None? && f.ourPid == 0
  {
    Forwarder(0, None, None, None, 0)
  }

  /** A forwarder with an optional reply route, nothing pending and pid 0. */
  function NewMaybeUdp(replyTo: Option<SocketAddr>, replyFrom: Option<Socket>): (f: Forwarder)
    ensures Idle(f) && f.replyTo == replyTo && f.replyFrom == replyFrom && f.ourPid == 0
  {
    Forwarder(0, replyTo, replyFrom, None, 0)
  }

  /** A forwarder with a reply route, nothing pending and pid 0. */
  function NewUdp(replyTo: SocketAddr, replyFrom: Socket): (f: Forwarder)
    ensures Idle(f) && f.replyTo == Some(replyTo) && f.replyFrom == Some(replyFrom) && f.ourPid == 0
  {
    Forwarder(0, Some(replyTo), Some(replyFrom), None, 0)
  }

  /** Only the pid changes. */
  function SetPid(f: Forwarder, pid: u64): (r: Forwarder)
    ensures r.ourPid == pid
    ensures r.replyTo == f.replyTo && r.replyFrom == f.replyFrom
    ensures r.currentEncodedMsg == f.currentEncodedMsg && r.currentEncodedSent == f.currentEncodedSent
  {
    f.(ourPid := pid)
  }

  /** Bytes one send outcome delivered. */
  function Amount(o: SendOutcome): (r: nat) {
    match o
    case Sent(n) => n
    case _ => 0
  }

  /** Bytes delivered by a run of send outcomes. */
  function Delivered(os: seq<SendOutcome>): (r: nat)
    decreases |os|
  {
    if |os| == 0 then 0 else Amount(os[0]) + Delivered(os[1..])
  }

  lemma DeliveredPrefix(os: seq<SendOutcome>, i: nat)
    requires 0 < i <= |os|
    ensures Delivered(os[..i]) == Amount(os[0]) + Delivered(os[1..][..i - 1])
  {
    assert os[..i][1..] == os[1..][..i - 1];
  }

  /** How the send loop ended: the whole frame went out, the socket was not
      ready (or reported nothing further), or a send failed. */
  datatype LoopEnd = Done | Blocked | Failed(error: IoError)

  /** Where the loop stopped: progress reached, outcomes consumed, the
      slices handed to the socket in order, and why it stopped. */
  datatype LoopResult = LoopResult(sent: nat, used: nat, offered: seq<seq<u8>>, end: LoopEnd)

  /** Every slice handed to the socket is the unsent rest of the frame, given
      the bytes delivered before it. */
  predicate OffersRest(frame: seq<u8>, sent: nat, os: seq<SendOutcome>, offered: seq<seq<u8>>)
    requires |offered| <= |os|
  {
    forall i :: 0 <= i < |offered| ==>
      sent + Delivered(os[..i]) < |frame| && offered[i] == frame[sent + Delivered(os[..i])..]
  }

  /** Offer the unsent rest of the frame until all of it is out.
      The progress counter grows by exactly what the socket reports. */
  function SendLoop(frame: seq<u8>, sent: nat, os: seq<SendOutcome>): (r: LoopResult)
    ensures r.used <= |os| && |r.offered| == r.used
    ensures r.sent == sent + Delivered(os[..r.used])
    ensures r.end.Done? <==> r.sent >= |frame|
    ensures r.end.Failed? ==> r.used > 0 && os[r.used - 1] == SendFailed(r.end.error)
    ensures r.end.Blocked? ==> r.used == |os| || (r.used > 0 && os[r.used - 1] == WouldBlock)
    ensures OffersRest(frame, sent, os, r.offered)
    ensures forall i :: 0 <= i < r.used - 1 ==> os[i].Sent?
    ensures r.end.Done? ==> forall i :: 0 <= i < r.used ==> os[i].Sent?
    decreases |os|
  {
    if sent >= |frame| then LoopResult(sent, 0, [], Done)
    else if |os| == 0 then LoopResult(sent, 0, [], Blocked)
    else
      var slice := frame[sent..];
      match os[0]
      case WouldBlock =>
        assert os[..1][1..] == [];
        LoopResult(sent, 1, [slice], Blocked)
      case SendFailed(e) =>
        assert os[..1][1..] == [];
        LoopResult(sent, 1, [slice], Failed(e))
      case Sent(n) =>
        var rest := SendLoop(frame, sent + n, os[1..]);
        SendLoopStep(frame, sent, n, os, rest);
        LoopResult(rest.sent, rest.used + 1, [slice] + rest.offered, rest.end)
  }

  lemma SendLoopStep(frame: seq<u8>, sent: nat, n: nat, os: seq<SendOutcome>, rest: LoopResult)
    requires sent < |frame| && |os| > 0 && os[0] == Sent(n)
    requires rest.used <= |os| - 1 && |rest.offered| == rest.used
    requires rest.sent == sent + n + Delivered(os[1..][..rest.used])
    requires OffersRest(frame, sent + n, os[1..], rest.offered)
    requires forall i :: 0 <= i < rest.used - 1 ==> os[1..][i].Sent?
    requires rest.end.Done? ==> forall i :: 0 <= i < rest.used ==> os[1..][i].Sent?
    ensures rest.sent == sent + Delivered(os[..rest.used + 1])
    ensures OffersRest(frame, sent, os, [frame[sent..]] + rest.offered)
    ensures forall i :: 0 <= i < rest.used ==> os[i].Sent?
    ensures rest.end.Done? ==> forall i :: 0 <= i < rest.used + 1 ==> os[i].Sent?
  {
    forall i | 0 < i < rest.used + 1 ensures os[i] == os[1..][i - 1] { }
    DeliveredPrefix(os, rest.used + 1);
    var offered := [frame[sent..]] + rest.offered;
    forall i | 0 <= i < |offered|
      ensures sent + Delivered(os[..i]) < |frame| && offered[i] == frame[sent + Delivered(os[..i])..]
    {
      if i > 0 {
        DeliveredPrefix(os, i);
        assert offered[i] == rest.offered[i - 1];
      }
    }
  }

  // ---------------------------------------------------------------------------
  // poll_write (lines 68-116)

  /** One call of `poll_write`: what it returns, the forwarder afterwards, the
      slices handed to the socket and how many send outcomes it used. */
  datatype WriteStep = WriteStep(
    result: Poll<Result<nat, IoError>>, next: Forwarder, offered: seq<seq<u8>>, used: nat)

  /** Both a destination and a socket were given. */
  predicate Connected(f: Forwarder) {
    f.replyTo.Some? && f.replyFrom.Some?
  }

  /** The same destination, socket and pid. */
  ghost predicate SameRoute(f: Forwarder, g: Forwarder) {
    f.ourPid == g.ourPid && f.replyTo == g.replyTo && f.replyFrom == g.replyFrom
  }

  /** `buf` reported as fully written. */
  function WroteAll(buf: seq<u8>): (r: Poll<Result<nat, IoError>>) {
    Ready(Success(|buf|))
  }

  /** Runs the send loop on `frame` from `sent` and turns its end into the
      poll result: done clears the frame, otherwise the frame and the progress
      are kept for the next call. */
  function SendFrame(f: Forwarder, buf: seq<u8>, frame: seq<u8>, sent: nat, os: seq<SendOutcome>): (w: WriteStep)
    ensures SameRoute(f, w.next) && w.used <= |os| && |w.offered| == w.used
    ensures OffersRest(frame, sent, os, w.offered)
    ensures w.result == WroteAll(buf) <==> sent + Delivered(os[..w.used]) >= |frame|
    ensures w.result == WroteAll(buf) ==> w.next.currentEncodedMsg.None?
    ensures w.result != WroteAll(buf) ==>
      && w.next.currentEncodedMsg == Some(frame)
      && w.next.currentEncodedSent == sent + Delivered(os[..w.used]) < |frame|
    ensures w.result.NotReady? ==> w.used == |os| || (w.used > 0 && os[w.used - 1] == WouldBlock)
    ensures w.result.Ready? && w.result.value.Failure? ==> w.used > 0 && os[w.used - 1] == SendFailed(w.result.value.error)
    ensures w.result == WroteAll(buf) || w.result.NotReady? || (w.result.Ready? && w.result.value.Failure?)
    ensures forall i :: 0 <= i < w.used - 1 ==> os[i].Sent?
    ensures w.result == WroteAll(buf) ==> forall i :: 0 <= i < w.used ==> os[i].Sent?
  {
    var l := SendLoop(frame, sent, os);
    var progressed := f.(currentEncodedMsg := Some(frame), currentEncodedSent := l.sent);
    match l.end
    case Done => WriteStep(WroteAll(buf), progressed.(currentEncodedMsg := None), l.offered, l.used)
    case Blocked => WriteStep(NotReady, progressed, l.offered, l.used)
    case Failed(e) => WriteStep(Ready(Failure(e)), progressed, l.offered, l.used)
  }

  /** A write of `buf`, as the code is written. `encode` stands for `serde_bare::to_vec` of the
      stdout message carrying the pid and a copy of `buf`; `os` are the
      outcomes the socket will report. A frame already pending on entry is
      dropped without sending the rest of it. */
  function PollWrite(f: Forwarder, buf: seq<u8>, encode: (u64, seq<u8>) -> Option<seq<u8>>, os: seq<SendOutcome>): (w: WriteStep)
    ensures SameRoute(f, w.next) && w.used <= |os| && |w.offered| == w.used
    ensures !Connected(f) ==> w == WriteStep(WroteAll(buf), f, [], 0)
    ensures Connected(f) && f.currentEncodedMsg.None? && encode(f.ourPid, buf).None? ==>
      w == WriteStep(WroteAll(buf), f, [], 0)
    ensures Connected(f) && f.currentEncodedMsg.Some? ==>
      w == WriteStep(WroteAll(buf), f.(currentEncodedMsg := None), [], 0)
    ensures Connected(f) && f.currentEncodedMsg.None? && encode(f.ourPid, buf).Some? ==>
      w == SendFrame(f, buf, encode(f.ourPid, buf).value, 0, os)
    ensures Connected(f) && f.currentEncodedMsg.None? && encode(f.ourPid, buf).Some? ==>
      var frame := encode(f.ourPid, buf).value;
      && OffersRest(frame, 0, os, w.offered)
      && (w.result == WroteAll(buf) <==> Delivered(os[..w.used]) >= |frame|)
      && (w.result != WroteAll(buf) ==>
            w.next.currentEncodedMsg == Some(frame) && w.next.currentEncodedSent == Delivered(os[..w.used]))
  {
    if !Connected(f) then WriteStep(WroteAll(buf), f, [], 0)
    else if f.currentEncodedMsg.None? then
      match encode(f.ourPid, buf)
      case None => WriteStep(WroteAll(buf), f, [], 0)
      case Some(frame) => SendFrame(f, buf, frame, 0, os)
    else WriteStep(WroteAll(buf), f.(currentEncodedMsg := None), [], 0)
  }

  /** `poll_write` as its comment on line 108 intends: a frame pending on entry
      is resumed where the last call stopped, so success is only reported
      once the whole frame has gone out. */
  function PollWriteResuming(f: Forwarder, buf: seq<u8>, encode: (u64, seq<u8>) -> Option<seq<u8>>, os: seq<SendOutcome>): (w: WriteStep)
    ensures SameRoute(f, w.next) && w.used <= |os| && |w.offered| == w.used
    ensures !Connected(f) ==> w == WriteStep(WroteAll(buf), f, [], 0)
    ensures Connected(f) && f.currentEncodedMsg.None? && encode(f.ourPid, buf).None? ==>
      w == WriteStep(WroteAll(buf), f, [], 0)
    ensures Connected(f) && f.currentEncodedMsg.Some? ==>
      w == SendFrame(f, buf, f.currentEncodedMsg.value, f.currentEncodedSent, os)
    ensures Connected(f) && f.currentEncodedMsg.Some? ==>
      && OffersRest(f.currentEncodedMsg.value, f.currentEncodedSent, os, w.offered)
      && (w.result == WroteAll(buf) <==> f.currentEncodedSent + Delivered(os[..w.used]) >= |f.currentEncodedMsg.value|)
    ensures Connected(f) && f.currentEncodedMsg.None? && encode(f.ourPid, buf).Some? ==>
      w == SendFrame(f, buf, encode(f.ourPid, buf).value, 0, os)
  {
    if !Connected(f) then WriteStep(WroteAll(buf), f, [], 0)
    else
      match f.currentEncodedMsg
      case Some(frame) => SendFrame(f, buf, frame, f.currentEncodedSent, os)
      case None =>
        match encode(f.ourPid, buf)
        case None => WriteStep(WroteAll(buf), f, [], 0)
        case Some(frame) => SendFrame(f, buf, frame, 0, os)
  }

  /** Flushing is always done at once. */
  function PollFlush(f: Forwarder): (r: Poll<Result<(), IoError>>)
    ensures r.Ready? && r.value.Success?
  {
    Ready(Success(()))
  }

  /** Shutting down is always done at once. */
  function PollShutdown(f: Forwarder): (r: Poll<Result<(), IoError>>)
    ensures r.Ready? && r.value.Success?
  {
    Ready(Success(()))
  }

  /** The forwarded stream is never a terminal. */
  function IsTerminal(f: Forwarder): (t: bool)
    ensures !t
  {
    false
  }

  // ---------------------------------------------------------------------------
  // Writes retried after the socket was not ready

  /** As written: a write that found the socket not ready and is retried, as
      an asynchronous writer's caller does, reports the buffer written without
      handing a single further byte to the socket, although none of the frame
      went out. */
  lemma PendingFrameDropped(f: Forwarder, buf: seq<u8>, encode: (u64, seq<u8>) -> Option<seq<u8>>, retry: seq<SendOutcome>)
    requires Connected(f) && f.currentEncodedMsg.None?
    requires encode(f.ourPid, buf).Some? && |encode(f.ourPid, buf).value| > 0
    ensures var first := PollWrite(f, buf, encode, [WouldBlock]);
      var second := PollWrite(first.next, buf, encode, retry);
      && first.result.NotReady?
      && first.next.currentEncodedSent == 0
      && second.result == WroteAll(buf)
      && second.offered == []
  {
    var frame := encode(f.ourPid, buf).value;
    var os: seq<SendOutcome> := [WouldBlock];
    assert os[..1] == os && os[1..] == [];
    assert Delivered(os[..1]) == 0;
  }

  /** Corrected: over a write that found the socket not ready and its retry,
      the buffer is reported written only once the bytes the socket accepted
      in the two calls together cover the whole frame, and the retry offers
      exactly the rest the first call left. */
  lemma ResumingReportsOnlyWholeFrames(f: Forwarder, buf: seq<u8>, encode: (u64, seq<u8>) -> Option<seq<u8>>, os1: seq<SendOutcome>, os2: seq<SendOutcome>)
    requires Connected(f) && f.currentEncodedMsg.None? && encode(f.ourPid, buf).Some?
    requires PollWriteResuming(f, buf, encode, os1).result.NotReady?
    ensures var frame := encode(f.ourPid, buf).value;
      var first := PollWriteResuming(f, buf, encode, os1);
      var second := PollWriteResuming(first.next, buf, encode, os2);
      && (second.result == WroteAll(buf) <==> Delivered(os1[..first.used]) + Delivered(os2[..second.used]) >= |frame|)
      && (|second.offered| > 0 ==> second.offered[0] == frame[Delivered(os1[..first.used])..])
  {
    var frame := encode(f.ourPid, buf).value;
    var first := PollWriteResuming(f, buf, encode, os1);
    assert first.next.currentEncodedMsg == Some(frame);
    var second := PollWriteResuming(first.next, buf, encode, os2);
    if |second.offered| > 0 {
      assert os2[..0] == [];
    }
  }
}

=== FILE: wrappers.dfy ===
/** Failure-carrying result types shared by every module of the model. */
module Wrappers {

  /** An optional value: `None` stands for Rust's `None` and Python's `None`. */
  datatype Option<+T> = None | Some(value: T)

  /** A value or an error, as Rust's `Result` or a Python call that may raise. */
  datatype Result<+T, +E> = Success(value: T) | Failure(error: E)
}

/** Fixed-width unsigned integers of the Rust code. */
module Machine {

  const U32_LIMIT: int := 0x1_0000_0000
  const U64_LIMIT: int := 0x1_0000_0000_0000_0000

  newtype u8 = x: int | 0 <= x < 0x100
  newtype u32 = x: int | 0 <= x < U32_LIMIT
  newtype u64 = x: int | 0 <= x < U64_LIMIT

  /** `u64::MAX`. */
  const U64_MAX: u64 := (U64_LIMIT - 1) as u64
}

=== FILE: zig_build.dfy ===
/** The cross-target build driver `zig-build-all-targets.py`: it checks for the
    required tools, offers to install `cargo-zigbuild`, makes the MinGW `dlltool`
    reachable, then builds every target in a fixed order and locates each binary,
    stopping at the first failure. The machine it runs on is the `Host` oracle. */
module ZigBuild {
  import opened Wrappers
  import PyStr
  import PosixPath

  const REQUIRED_BINS: seq<string> := ["cargo", "zig"]
  const ZIGBUILD_BIN: string := "cargo-zigbuild"
  const DLLTOOL_BIN: string := "x86_64-w64-mingw32-dlltool"
  const INSTALL_ARGV: seq<string> := ["cargo", "install", "--locked", "cargo-zigbuild"]
  const PATH_SEP: char := ':'

  /** The targets, in the order they are built. */
  const TARGETS: seq<string> := [
    "x86_64-pc-windows-gnu",
    "x86_64-unknown-linux-gnu",
    "x86_64-apple-darwin",
    "aarch64-pc-windows-gnullvm",
    "aarch64-unknown-linux-gnu",
    "aarch64-apple-darwin"
  ]

  /** What the script learns from the machine it runs on. */
  datatype Host = Host(
    which: (string, Option<string>) -> bool,   // `shutil.which(name)` under a PATH value (None: PATH unset)
    home: string,                              // `pathlib.Path.home()`
    answer: Option<string>,                    // the line typed at the prompt; None: end of input
    installSucceeds: bool,                     // `cargo install --locked cargo-zigbuild` exits 0
    fetchSucceeds: bool,                       // download, decompression and extraction all complete
    buildSucceeds: string -> bool,             // `cargo zigbuild --release --target t` exits 0
    fileExists: string -> bool)                  // `os.path.exists`, after the builds

  /** The observable actions of a run, in the order they happen. */
  datatype Step =
    | InstallZigbuild
    | MakeCacheDir(dir: string)
    | SetPath(path: string)
    | FetchLinkerArchive
    | Build(target: string)
    | Found(target: string, binary: string)

  /** Why a run stopped early: `sys.exit(code)` or an uncaught exception. */
  datatype Stop =
    | ExitCode(code: int)
    | EndOfInput                      // `input()` raised EOFError
    | CommandFailed(argv: seq<string>) // `subprocess.run(..., check=True)` raised
    | PathUnset                       // `os.environ['PATH']` raised KeyError
    | FetchFailed                     // download, decompression or extraction raised
    | NoArtifact(message: string)     // `find_target_binary` raised

  /** A run so far: its steps, whether it has stopped, and the process environment. */
  datatype Run = Run(steps: seq<Step>, stopped: Option<Stop>, env: map<string, string>)

  /** A sequence of steps and, when the sequence was cut short, why. */
  datatype Trace = Trace(steps: seq<Step>, stopped: Option<Stop>)

  function SearchPath(env: map<string, string>): (r: Option<string>) {
    if "PATH" in env then Some(env["PATH"]) else None
  }

  // ---------------------------------------------------------------------------
  // Required binaries (lines 21-26)

  /** The first of `bins` that does not resolve, if any. */
  function FirstMissing(bins: seq<string>, which: (string, Option<string>) -> bool, path: Option<string>): (r: Option<string>)
    ensures r.None? <==> forall k :: 0 <= k < |bins| ==> which(bins[k], path)
    ensures r.Some? ==>
      exists k :: 0 <= k < |bins| && bins[k] == r.value && !which(bins[k], path)
                  && forall j :: 0 <= j < k ==> which(bins[j], path)
  {
    if |bins| == 0 then None
    else if !which(bins[0], path) then Some(bins[0])
    else
      var r := FirstMissing(bins[1..], which, path);
      assert r.Some? ==> exists k :: 1 <= k < |bins| && bins[k] == r.value && !which(bins[k], path)
                          && forall j :: 0 <= j < k ==> which(bins[j], path) by {
        if r.Some? {
          var k :| 0 <= k < |bins| - 1 && bins[1..][k] == r.value && !which(bins[1..][k], path)
                   && forall j :: 0 <= j < k ==> which(bins[1..][j], path);
          assert bins[k + 1] == r.value;
          assert forall j :: 0 <= j < k + 1 ==> which(bins[j], path) by {
            forall j | 0 <= j < k + 1 ensures which(bins[j], path) {
              if j > 0 { assert bins[j] == bins[1..][j - 1]; }
            }
          }
        }
      }
      r
  }

  function CheckRequired(env: map<string, string>, host: Host): (run: Run)
    ensures run.steps == [] && run.env == env
    ensures run.stopped.None? <==> forall k :: 0 <= k < |REQUIRED_BINS| ==> host.which(REQUIRED_BINS[k], SearchPath(env))
    ensures run.stopped.Some? ==> run.stopped == Some(ExitCode(1))
  {
    if FirstMissing(REQUIRED_BINS, host.which, SearchPath(env)).Some? then Run([], Some(ExitCode(1)), env)
    else Run([], None, env)
  }

  // ---------------------------------------------------------------------------
  // The install prompt (lines 28-35)

  /** The first non-space character of `s`, if any. */
  function FirstVisible(s: string): (r: Option<char>) {
    if |s| == 0 then None
    else if PyStr.IsSpace(s[0]) then FirstVisible(s[1..])
    else Some(s[0])
  }

  lemma {:induction false} FirstVisibleLStrip(s: string)
    ensures FirstVisible(s) == if |PyStr.LStrip(s)| == 0 then None else Some(PyStr.LStrip(s)[0])
  {
    if |s| > 0 && PyStr.IsSpace(s[0]) {
      FirstVisibleLStrip(s[1..]);
    }
  }

  /** The characters `yn[:1] in ('y', '1', 't')` admits. */
  predicate IsYes(c: char) {
    c == 'y' || c == '1' || c == 't'
  }

  /** The characters that lower-case to one of those. */
  predicate IsYesAnyCase(c: char) {
    c == 'y' || c == 'Y' || c == '1' || c == 't' || c == 'T'
  }

  lemma LowerCharYes(c: char)
    ensures IsYes(PyStr.LowerChar(c)) <==> IsYesAnyCase(c)
  {
    var d := PyStr.LowerChar(c);
    if 'A' <= c <= 'Z' {
      assert d as int == c as int + 32;
      assert d == 'y' <==> c == 'Y';
      assert d == 't' <==> c == 'T';
      assert d != '1';
    }
  }

  /** The answer accepts the install: the stripped, lower-cased answer begins
      with `y`, `1` or `t` — equivalently its first visible character is one of
      `y`, `Y`, `1`, `t`, `T`. An empty or blank answer declines. */
  function AcceptsInstall(answer: string): (ok: bool)
    ensures ok <==> FirstVisible(answer).Some? && IsYesAnyCase(FirstVisible(answer).value)
  {
    var yn := PyStr.Lower(PyStr.Strip(answer));
    AcceptsInstallFirstVisible(answer);
    |yn| > 0 && IsYes(yn[0])
  }

  lemma AcceptsInstallFirstVisible(answer: string)
    ensures var yn := PyStr.Lower(PyStr.Strip(answer));
      (|yn| > 0 && IsYes(yn[0])) <==> FirstVisible(answer).Some? && IsYesAnyCase(FirstVisible(answer).value)
  {
    var l := PyStr.LStrip(answer);
    var st := PyStr.Strip(answer);
    var yn := PyStr.Lower(st);
    FirstVisibleLStrip(answer);
    assert |st| == 0 <==> |l| == 0 by {
      if |l| > 0 {
        assert !PyStr.IsSpace(answer[|answer| - |l|]);
      }
    }
    if |l| > 0 {
      var c := l[0];
      assert st[0] == c;
      assert yn[0] == PyStr.LowerChar(c);
      LowerCharYes(c);
    }
  }

  function EnsureZigbuild(run: Run, host: Host): (r: Run)
    ensures run.stopped.Some? ==> r == run
    ensures r.env == run.env
    ensures run.stopped.None? && host.which(ZIGBUILD_BIN, SearchPath(run.env)) ==> r == run
    ensures run.stopped.None? && !host.which(ZIGBUILD_BIN, SearchPath(run.env)) ==>
      (r.steps == run.steps + [InstallZigbuild] <==> host.answer.Some? && AcceptsInstall(host.answer.value))
      && (r.steps == run.steps <==> !(host.answer.Some? && AcceptsInstall(host.answer.value)))
    ensures run.stopped.None? && r.stopped.None? ==>
      host.which(ZIGBUILD_BIN, SearchPath(run.env)) || (host.answer.Some? && AcceptsInstall(host.answer.value) && host.installSucceeds)
    ensures run.stopped.None? && host.answer.Some? && !AcceptsInstall(host.answer.value) && !host.which(ZIGBUILD_BIN, SearchPath(run.env)) ==>
      r == run.(stopped := Some(ExitCode(1)))
    ensures run.stopped.None? && !host.which(ZIGBUILD_BIN, SearchPath(run.env)) && host.answer.None? ==>
      r == run.(stopped := Some(EndOfInput))
    ensures run.stopped.None? && !host.which(ZIGBUILD_BIN, SearchPath(run.env)) && host.answer.Some? && AcceptsInstall(host.answer.value) ==>
      r.stopped == if host.installSucceeds then None else Some(CommandFailed(INSTALL_ARGV))
  {
    if run.stopped.Some? || host.which(ZIGBUILD_BIN, SearchPath(run.env)) then run
    else match host.answer
      case None => run.(stopped := Some(EndOfInput))
      case Some(a) =>
        if !AcceptsInstall(a) then run.(stopped := Some(ExitCode(1)))
        else
          var installed := run.(steps := run.steps + [InstallZigbuild]);
          if host.installSucceeds then installed else installed.(stopped := Some(CommandFailed(INSTALL_ARGV)))
  }

  // ---------------------------------------------------------------------------
  // Making dlltool reachable (lines 40-68)

  function MingwFolder(home: string): (r: string) {
    PosixPath.Join(home, [".cache", "mingw32_tools_folder"])
  }

  /** The tool directories below the cache folder, in the order they join PATH. */
  const TOOL_SUBDIRS: seq<seq<string>> := [["bin"], ["usr", "bin"], ["opt", "bin"], ["opt", "x86_64-w64-mingw32", "bin"]]

  /** The directories appended to PATH, in order: the cache folder, then its tool directories. */
  function MingwDirs(home: string): (r: seq<string>) {
    var f := MingwFolder(home);
    [f] + seq(|TOOL_SUBDIRS|, i requires 0 <= i < |TOOL_SUBDIRS| => PosixPath.Join(f, TOOL_SUBDIRS[i]))
  }

  /** No fixed component of these directories contains `:`. */
  lemma FixedPartsAvoidSep()
    ensures forall j :: 0 <= j < 2 ==> PATH_SEP !in [".cache", "mingw32_tools_folder"][j]
    ensures forall i, j :: 0 <= i < |TOOL_SUBDIRS| && 0 <= j < |TOOL_SUBDIRS[i]| ==> PATH_SEP !in TOOL_SUBDIRS[i][j]
  {
  }

  /** When the home directory has no `:`, neither has any directory added to PATH. */
  lemma MingwDirsAvoidSep(home: string)
    requires PATH_SEP !in home
    ensures forall k :: 0 <= k < |MingwDirs(home)| ==> PATH_SEP !in MingwDirs(home)[k]
  {
    var f := MingwFolder(home);
    FixedPartsAvoidSep();
    PosixPath.JoinAvoids(home, [".cache", "mingw32_tools_folder"], PATH_SEP);
    forall i | 0 <= i < |TOOL_SUBDIRS| ensures PATH_SEP !in PosixPath.Join(f, TOOL_SUBDIRS[i]) {
      PosixPath.JoinAvoids(f, TOOL_SUBDIRS[i], PATH_SEP);
    }
  }

  /** The augmented search path: the old value comes first, unchanged, then
      the cache folder and its four tool directories. Read back the way
      `shutil.which` reads it — split on `:` — it lists the old entries and then
      exactly those five directories in order. */
  function AugmentedPath(previous: string, home: string): (p: string)
    ensures PyStr.StartsWith(p, previous + [PATH_SEP])
    ensures PATH_SEP !in home ==> PyStr.SplitOn(p, PATH_SEP) == PyStr.SplitOn(previous, PATH_SEP) + MingwDirs(home)
  {
    var dirs := MingwDirs(home);
    var p := PyStr.JoinWith(PATH_SEP, [previous] + dirs);
    assert p == previous + [PATH_SEP] + PyStr.JoinWith(PATH_SEP, dirs) by {
      assert ([previous] + dirs)[1..] == dirs;
    }
    if PATH_SEP !in home then
      MingwDirsAvoidSep(home);
      PyStr.SplitOnConcat(previous, PyStr.JoinWith(PATH_SEP, dirs), PATH_SEP);
      PyStr.SplitOnJoinWith(dirs, PATH_SEP);
      p
    else p
  }

  /** When dlltool does not resolve, the cache folder is created
      first; PATH then becomes the augmented value, or the script stops when
      PATH is unset. */
  function EnsureDlltool(run: Run, host: Host): (r: Run)
    ensures run.stopped.Some? || host.which(DLLTOOL_BIN, SearchPath(run.env)) ==> r == run
    ensures run.stopped.None? && !host.which(DLLTOOL_BIN, SearchPath(run.env)) ==>
      && |r.steps| > |run.steps|
      && run.steps <= r.steps
      && r.steps[|run.steps|] == MakeCacheDir(MingwFolder(host.home))
    ensures run.stopped.None? && !host.which(DLLTOOL_BIN, SearchPath(run.env)) && "PATH" !in run.env ==>
      r == run.(steps := run.steps + [MakeCacheDir(MingwFolder(host.home))], stopped := Some(PathUnset))
    ensures run.stopped.None? && !host.which(DLLTOOL_BIN, SearchPath(run.env)) && "PATH" in run.env ==>
      var path := AugmentedPath(run.env["PATH"], host.home);
      r.steps == run.steps + [MakeCacheDir(MingwFolder(host.home)), SetPath(path)]
        + (if host.which(DLLTOOL_BIN, Some(path)) then [] else [FetchLinkerArchive])
    ensures run.stopped.None? && !host.which(DLLTOOL_BIN, SearchPath(run.env)) && "PATH" in run.env ==>
      && |r.steps| > |run.steps| + 1
      && r.steps[|run.steps| + 1] == SetPath(AugmentedPath(run.env["PATH"], host.home))
      && r.env == run.env["PATH" := AugmentedPath(run.env["PATH"], host.home)]
    ensures run.stopped.None? && !host.which(DLLTOOL_BIN, SearchPath(run.env)) && "PATH" in run.env ==>
      var path := AugmentedPath(run.env["PATH"], host.home);
      && (r.stopped.None? <==> host.which(DLLTOOL_BIN, Some(path)) || host.fetchSucceeds)
      && (r.stopped.Some? ==> r.stopped == Some(FetchFailed))
  {
    if run.stopped.Some? || host.which(DLLTOOL_BIN, SearchPath(run.env)) then run
    else
      var made := run.(steps := run.steps + [MakeCacheDir(MingwFolder(host.home))]);
      var r := ExtendPath(made, host);
      assert made.steps[|run.steps|] == MakeCacheDir(MingwFolder(host.home));
      r
  }

  /** PATH gains the cache directories; reading an unset PATH raises. */
  function ExtendPath(run: Run, host: Host): (r: Run)
    ensures run.steps <= r.steps
    ensures "PATH" !in run.env ==> r == run.(stopped := Some(PathUnset))
    ensures "PATH" in run.env ==> var path := AugmentedPath(run.env["PATH"], host.home);
      r.steps == run.steps + [SetPath(path)] + (if host.which(DLLTOOL_BIN, Some(path)) then [] else [FetchLinkerArchive])
    ensures "PATH" in run.env ==>
      && |r.steps| > |run.steps|
      && r.steps[|run.steps|] == SetPath(AugmentedPath(run.env["PATH"], host.home))
      && r.env == run.env["PATH" := AugmentedPath(run.env["PATH"], host.home)]
    ensures "PATH" in run.env ==> var path := AugmentedPath(run.env["PATH"], host.home);
      && (r.stopped.None? <==> run.stopped.None? && (host.which(DLLTOOL_BIN, Some(path)) || host.fetchSucceeds))
      && (run.stopped.None? && r.stopped.Some? ==> r.stopped == Some(FetchFailed))
  {
    if "PATH" !in run.env then run.(stopped := Some(PathUnset))
    else
      var path := AugmentedPath(run.env["PATH"], host.home);
      var extended := run.(steps := run.steps + [SetPath(path)], env := run.env["PATH" := path]);
      var r := FetchIfUnresolved(extended, path, host);
      assert extended.steps[|run.steps|] == SetPath(path);
      r
  }

  /** Fetch and unpack the archive when dlltool still does not resolve. */
  function FetchIfUnresolved(run: Run, path: string, host: Host): (r: Run)
    ensures run.steps <= r.steps && r.env == run.env
    ensures r.stopped.None? ==> run.stopped.None?
    ensures host.which(DLLTOOL_BIN, Some(path)) ==> r == run
    ensures !host.which(DLLTOOL_BIN, Some(path)) ==>
      && r.steps == run.steps + [FetchLinkerArchive]
      && (r.stopped.None? <==> run.stopped.None? && host.fetchSucceeds)
      && (!host.fetchSucceeds ==> r.stopped == Some(FetchFailed))
  {
    if host.which(DLLTOOL_BIN, Some(path)) then run
    else
      var fetching := run.(steps := run.steps + [FetchLinkerArchive]);
      if host.fetchSucceeds then fetching else fetching.(stopped := Some(FetchFailed))
  }

  /** The archive is fetched only when dlltool is still unresolved after PATH grows. */
  lemma DlltoolFetch(run: Run, host: Host)
    requires FetchLinkerArchive !in run.steps
    ensures FetchLinkerArchive in EnsureDlltool(run, host).steps <==>
      run.stopped.None? && !host.which(DLLTOOL_BIN, SearchPath(run.env)) && "PATH" in run.env
      && !host.which(DLLTOOL_BIN, Some(AugmentedPath(run.env["PATH"], host.home)))
  {
    if run.stopped.None? && !host.which(DLLTOOL_BIN, SearchPath(run.env)) {
      var made := run.(steps := run.steps + [MakeCacheDir(MingwFolder(host.home))]);
      assert FetchLinkerArchive !in made.steps;
      if "PATH" in run.env {
        var path := AugmentedPath(run.env["PATH"], host.home);
        var augmented := made.(steps := made.steps + [SetPath(path)], env := run.env["PATH" := path]);
        assert FetchLinkerArchive !in augmented.steps;
      }
    }
  }

  // ---------------------------------------------------------------------------
  // RUSTFLAGS (lines 84-85)

  /** After this step RUSTFLAGS is unset and every other variable is as before. */
  function DropRustflags(env: map<string, string>): (r: map<string, string>)
    ensures "RUSTFLAGS" !in r
    ensures forall k :: k != "RUSTFLAGS" ==> (k in r <==> k in env)
    ensures forall k :: k in r ==> r[k] == env[k]
  {
    if "RUSTFLAGS" in env then env - {"RUSTFLAGS"} else env
  }

  // ---------------------------------------------------------------------------
  // Locating a built binary (lines 73-81)

  function ExeCandidate(t: string): (r: string) {
    PosixPath.Join("target", [t, "release", "weverywhere.exe"])
  }

  function PlainCandidate(t: string): (r: string) {
    PosixPath.Join("target", [t, "release", "weverywhere"])
  }

  lemma CandidatePaths(t: string)
    requires PosixPath.IsName(t)
    ensures ExeCandidate(t) == "target" + "/" + t + "/" + "release" + "/" + "weverywhere.exe"
    ensures PlainCandidate(t) == "target" + "/" + t + "/" + "release" + "/" + "weverywhere"
  {
    assert PosixPath.IsName("release") && PosixPath.IsName("weverywhere.exe") && PosixPath.IsName("weverywhere");
    PosixPath.JoinNames("target", [t, "release", "weverywhere.exe"]);
    PosixPath.SlashedThree("target", t, "release", "weverywhere.exe");
    PosixPath.JoinNames("target", [t, "release", "weverywhere"]);
    PosixPath.SlashedThree("target", t, "release", "weverywhere");
  }

  /** `find_target_binary(t)`: the `.exe` candidate when it exists, else the plain
      one when it exists, else an error that names the target. */
  function FindTargetBinary(t: string, fileExists: string -> bool): (r: Result<string, string>)
    ensures r.Success? <==> fileExists(ExeCandidate(t)) || fileExists(PlainCandidate(t))
    ensures r.Success? && fileExists(ExeCandidate(t)) ==> r.value == ExeCandidate(t)
    ensures r.Success? && !fileExists(ExeCandidate(t)) ==> r.value == PlainCandidate(t)
    ensures r.Failure? ==> PyStr.Contains(r.error, t)
  {
    var candidates := [ExeCandidate(t), PlainCandidate(t)];
    if fileExists(candidates[0]) then Success(candidates[0])
    else if fileExists(candidates[1]) then Success(candidates[1])
    else
      var prefix := "Cannot find a binary for ";
      var message := prefix + t;
      assert PyStr.OccursAt(message, t, |prefix|) by { assert message[|prefix|..|prefix| + |t|] == t; }
      Failure(message)
  }

  // ---------------------------------------------------------------------------
  // The target loop (lines 88-105)

  function BuildArgv(t: string): (r: seq<string>) {
    ["cargo", "zigbuild", "--release", "--target", t]
  }

  /** Target `t` builds and its binary is found. */
  predicate TargetSucceeds(t: string, host: Host) {
    host.buildSucceeds(t) && FindTargetBinary(t, host.fileExists).Success?
  }

  /** The steps of targets that all succeed: each build followed by its lookup. */
  function SuccessSteps(ts: seq<string>, host: Host): (r: seq<Step>)
    requires forall k :: 0 <= k < |ts| ==> TargetSucceeds(ts[k], host)
  {
    if |ts| == 0 then []
    else
      assert TargetSucceeds(ts[0], host);
      [Build(ts[0]), Found(ts[0], FindTargetBinary(ts[0], host.fileExists).value)] + SuccessSteps(ts[1..], host)
  }

  /** Why target `t` stopped the run. */
  function TargetFailure(t: string, host: Host): (r: Stop)
    requires !TargetSucceeds(t, host)
  {
    if !host.buildSucceeds(t) then CommandFailed(BuildArgv(t))
    else NoArtifact(FindTargetBinary(t, host.fileExists).error)
  }

  /** The `for t in targets` loop: build, then locate; the first failure ends it. */
  function BuildTargets(ts: seq<string>, host: Host): (r: Trace)
    ensures r.stopped.None? <==> forall k :: 0 <= k < |ts| ==> TargetSucceeds(ts[k], host)
    ensures |r.steps| <= 2 * |ts|
    ensures r.stopped.None? ==> |r.steps| == 2 * |ts|
    decreases |ts|
  {
    if |ts| == 0 then Trace([], None)
    else
      var t := ts[0];
      if !host.buildSucceeds(t) then Trace([Build(t)], Some(CommandFailed(BuildArgv(t))))
      else match FindTargetBinary(t, host.fileExists)
        case Failure(message) => Trace([Build(t)], Some(NoArtifact(message)))
        case Success(binary) =>
          var rest := BuildTargets(ts[1..], host);
          Trace([Build(t), Found(t, binary)] + rest.steps, rest.stopped)
  }

  /** When every target succeeds, each is built and then located, in list order. */
  lemma {:induction false} BuildTargetsAllSucceed(ts: seq<string>, host: Host)
    requires forall k :: 0 <= k < |ts| ==> TargetSucceeds(ts[k], host)
    ensures BuildTargets(ts, host) == Trace(SuccessSteps(ts, host), None)
    decreases |ts|
  {
    if |ts| > 0 {
      BuildTargetsAllSucceed(ts[1..], host);
    }
  }

  /** Fail-fast: when target `k` is the first to fail, the targets before it were
      built and located in order, target `k` was attempted, the run stops with its
      failure, and nothing after it is attempted. */
  lemma {:induction false} BuildTargetsStopsAtFirstFailure(ts: seq<string>, host: Host, k: nat)
    requires k < |ts|
    requires forall j :: 0 <= j < k ==> TargetSucceeds(ts[j], host)
    requires !TargetSucceeds(ts[k], host)
    ensures BuildTargets(ts, host) == Trace(SuccessSteps(ts[..k], host) + [Build(ts[k])], Some(TargetFailure(ts[k], host)))
    decreases k
  {
    if k > 0 {
      BuildTargetsStopsAtFirstFailure(ts[1..], host, k - 1);
      assert ts[1..][..k - 1] == ts[..k][1..];
    }
  }

  /** Every step of the target loop names a target of the list, and a step names
      a later target only if every earlier target succeeded. */
  lemma {:induction false} BuildTargetsNoLaterAttempt(ts: seq<string>, host: Host, k: nat, j: nat)
    requires k < j < |ts|
    requires !TargetSucceeds(ts[k], host)
    requires forall i :: 0 <= i < k ==> TargetSucceeds(ts[i], host)
    requires forall i :: 0 <= i < k ==> ts[i] != ts[j]
    requires ts[k] != ts[j]
    ensures Build(ts[j]) !in BuildTargets(ts, host).steps
  {
    BuildTargetsStopsAtFirstFailure(ts, host, k);
    SuccessStepsTargets(ts[..k], host, ts[j]);
  }

  lemma {:induction false} SuccessStepsTargets(ts: seq<string>, host: Host, u: string)
    requires forall k :: 0 <= k < |ts| ==> TargetSucceeds(ts[k], host)
    requires u !in ts
    ensures Build(u) !in SuccessSteps(ts, host)
    decreases |ts|
  {
    if |ts| > 0 {
      SuccessStepsTargets(ts[1..], host, u);
    }
  }

  // ---------------------------------------------------------------------------
  // The whole script

  function BuildAll(run: Run, host: Host): (r: Run)
    ensures run.stopped.Some? ==> r == run
    ensures run.stopped.None? ==>
      && r.env == run.env
      && r.stopped == BuildTargets(TARGETS, host).stopped
      && r.steps == run.steps + BuildTargets(TARGETS, host).steps
  {
    if run.stopped.Some? then run
    else
      var trace := BuildTargets(TARGETS, host);
      run.(steps := run.steps + trace.steps, stopped := trace.stopped)
  }

  /** Every check before the target loop passes: `cargo` and `zig` resolve;
      `cargo-zigbuild` resolves, or the prompt is accepted and the install
      succeeds; dlltool resolves, or PATH is set and dlltool resolves on the
      extended PATH or the archive is fetched. */
  predicate PreparationSucceeds(env: map<string, string>, host: Host) {
    && host.which("cargo", SearchPath(env)) && host.which("zig", SearchPath(env))
    && (host.which(ZIGBUILD_BIN, SearchPath(env)) || (host.answer.Some? && AcceptsInstall(host.answer.value) && host.installSucceeds))
    && (host.which(DLLTOOL_BIN, SearchPath(env))
        || ("PATH" in env && (host.which(DLLTOOL_BIN, Some(AugmentedPath(env["PATH"], host.home))) || host.fetchSucceeds)))
  }

  /** The checks before the target loop let the run go on exactly when
      `PreparationSucceeds` holds. */
  lemma PreparationStages(env: map<string, string>, host: Host)
    ensures CheckRequired(env, host).stopped.None? <==> host.which("cargo", SearchPath(env)) && host.which("zig", SearchPath(env))
    ensures EnsureDlltool(EnsureZigbuild(CheckRequired(env, host), host), host).stopped.None? <==> PreparationSucceeds(env, host)
  {
    var required := CheckRequired(env, host);
    assert required.stopped.None? <==> host.which("cargo", SearchPath(env)) && host.which("zig", SearchPath(env)) by {
      assert REQUIRED_BINS[0] == "cargo" && REQUIRED_BINS[1] == "zig";
    }
    if required.stopped.None? {
      ZigbuildStage(required, host);
      var zigbuild := EnsureZigbuild(required, host);
      if zigbuild.stopped.None? {
        DlltoolStage(zigbuild, host);
      }
    }
  }

  /** With the run going on, the install step lets it go on exactly when
      `cargo-zigbuild` resolves or the prompt is accepted and the install succeeds. */
  lemma ZigbuildStage(run: Run, host: Host)
    requires run.stopped.None?
    ensures EnsureZigbuild(run, host).stopped.None? <==>
      host.which(ZIGBUILD_BIN, SearchPath(run.env)) || (host.answer.Some? && AcceptsInstall(host.answer.value) && host.installSucceeds)
  {
  }

  /** With the run going on, the dlltool step lets it go on exactly when dlltool
      resolves, or PATH is set and dlltool resolves on the extended PATH or the
      archive is fetched. */
  lemma DlltoolStage(run: Run, host: Host)
    requires run.stopped.None?
    ensures EnsureDlltool(run, host).stopped.None? <==>
      host.which(DLLTOOL_BIN, SearchPath(run.env))
      || ("PATH" in run.env && (host.which(DLLTOOL_BIN, Some(AugmentedPath(run.env["PATH"], host.home))) || host.fetchSucceeds))
  {
  }

  /** Everything before the target loop: the required binaries, the install
      prompt, dlltool, and finally RUSTFLAGS removed when the run goes on. */
  function Prepare(env: map<string, string>, host: Host): (r: Run)
    ensures r.stopped.None? <==> PreparationSucceeds(env, host)
    ensures r.stopped.None? ==> "RUSTFLAGS" !in r.env
  {
    var dlltool := EnsureDlltool(EnsureZigbuild(CheckRequired(env, host), host), host);
    PreparationStages(env, host);
    if dlltool.stopped.None? then dlltool.(env := DropRustflags(dlltool.env)) else dlltool
  }

  /** The script from start to end: `stopped == None` is a normal exit, which
      happens exactly when preparation succeeds and every target builds and is
      found. */
  function RunScript(env: map<string, string>, host: Host): (r: Run)
    ensures r.stopped.None? ==> "RUSTFLAGS" !in r.env
    ensures r.stopped.None? <==> PreparationSucceeds(env, host) && forall k :: 0 <= k < |TARGETS| ==> TargetSucceeds(TARGETS[k], host)
  {
    var prepared := Prepare(env, host);
    var r := BuildAll(prepared, host);
    assert r.stopped.None? <==> prepared.stopped.None? && BuildTargets(TARGETS, host).stopped.None?;
    assert r.stopped.None? ==> r.env == prepared.env;
    r
  }

  /** A missing `cargo` or `zig` ends the run with status 1 before any other step. */
  lemma MissingRequiredBinaryExits(env: map<string, string>, host: Host)
    requires !host.which("cargo", SearchPath(env)) || !host.which("zig", SearchPath(env))
    ensures RunScript(env, host) == Run([], Some(ExitCode(1)), env)
  {
    assert !(forall k :: 0 <= k < |REQUIRED_BINS| ==> host.which(REQUIRED_BINS[k], SearchPath(env))) by {
      if !host.which("cargo", SearchPath(env)) { assert REQUIRED_BINS[0] == "cargo"; }
      else { assert REQUIRED_BINS[1] == "zig"; }
    }
  }

  /** Declining the install prompt ends the run with status 1 and nothing done. */
  lemma DeclinedInstallExits(env: map<string, string>, host: Host)
    requires host.which("cargo", SearchPath(env)) && host.which("zig", SearchPath(env))
    requires !host.which(ZIGBUILD_BIN, SearchPath(env))
    requires host.answer.Some? && !AcceptsInstall(host.answer.value)
    ensures RunScript(env, host) == Run([], Some(ExitCode(1)), env)
  {
    assert forall k :: 0 <= k < |REQUIRED_BINS| ==> host.which(REQUIRED_BINS[k], SearchPath(env));
  }

  /** The linker archive is fetched exactly when dlltool is unresolved both
      before and after the cache directories are appended to PATH. */
  lemma FetchOnlyWhenStillUnresolved(env: map<string, string>, host: Host)
    requires EnsureZigbuild(CheckRequired(env, host), host).stopped.None?
    ensures FetchLinkerArchive in RunScript(env, host).steps <==>
      !host.which(DLLTOOL_BIN, SearchPath(env)) && "PATH" in env
      && !host.which(DLLTOOL_BIN, Some(AugmentedPath(env["PATH"], host.home)))
  {
    PrepareFetch(env, host);
    BuildAllNeverFetches(Prepare(env, host), host);
  }

  lemma PrepareFetch(env: map<string, string>, host: Host)
    requires EnsureZigbuild(CheckRequired(env, host), host).stopped.None?
    ensures FetchLinkerArchive in Prepare(env, host).steps <==>
      !host.which(DLLTOOL_BIN, SearchPath(env)) && "PATH" in env
      && !host.which(DLLTOOL_BIN, Some(AugmentedPath(env["PATH"], host.home)))
  {
    var zigbuild := EnsureZigbuild(CheckRequired(env, host), host);
    assert zigbuild.env == env && FetchLinkerArchive !in zigbuild.steps;
    DlltoolFetch(zigbuild, host);
    assert Prepare(env, host).steps == EnsureDlltool(zigbuild, host).steps;
  }

  /** The target loop adds no fetch step. */
  lemma BuildAllNeverFetches(run: Run, host: Host)
    ensures FetchLinkerArchive in BuildAll(run, host).steps <==> FetchLinkerArchive in run.steps
  {
    if run.stopped.None? {
      BuildTargetsKinds(TARGETS, host);
      assert FetchLinkerArchive !in BuildTargets(TARGETS, host).steps;
    }
  }

  lemma {:induction false} BuildTargetsKinds(ts: seq<string>, host: Host)
    ensures forall s :: s in BuildTargets(ts, host).steps ==> s.Build? || s.Found?
    decreases |ts|
  {
    if |ts| > 0 {
      BuildTargetsKinds(ts[1..], host);
    }
  }

  /** Once the preparation succeeds, the targets are built in list order with
      RUSTFLAGS unset and the rest of the environment kept. */
  lemma TargetsRunAfterPreparation(env: map<string, string>, host: Host)
    requires EnsureDlltool(EnsureZigbuild(CheckRequired(env, host), host), host).stopped.None?
    ensures var prepared := EnsureDlltool(EnsureZigbuild(CheckRequired(env, host), host), host);
      && RunScript(env, host).steps == prepared.steps + BuildTargets(TARGETS, host).steps
      && RunScript(env, host).stopped == BuildTargets(TARGETS, host).stopped
      && RunScript(env, host).env == DropRustflags(prepared.env)
      && "RUSTFLAGS" !in RunScript(env, host).env
  {
  }
}
